=== FILE: README.md ===
# A Dafny model of the pico-8-bit file browser, input path and preference store

This project models the control logic of the RP2040 port of esp_8_bit, taken
from two files:

- `src/main.cpp`
  - the keyboard mailbox filled by the PS/2 interrupt handler `handleScancode`
  - the pad-poll cadence of `render_core`
  - the file browser `filebrowser`:
    - the `compareFileItems` order and the `qsort` of the listing
    - the `isExecutable` extension test, which calls `strtok`
    - how one directory's listing is built: the optional `..` entry, at most 500 entries, names cut to 78 characters
    - the cursor (`offset`, `current_item`) and its DOWN / UP / RIGHT / LEFT handlers
    - the path edits done on START (`\name` to enter a directory, `..` to cut the path at its last `\`)
    - one pass of the inner loop, including the START debounce
- `src/hid_server/hci_transport_esp32.cpp`
  - the flat-file preference store that replaces the ESP32 NVS library: `open_nvs`, `sys_get_pref` and `sys_set_pref` over the file `pico_8_bit.nvs`, a run of 256-byte key slots each followed by a 256-byte value slot

The modules are:

| module | what it holds |
|---|---|
| `Wrappers` | `Option`, `Min`, `Max` |
| `CString` | The C library calls the code relies on: `strcmp`, `strncmp`, `strncpy`, `strrchr` and `strtok`. A C string is the part of a buffer before its first NUL. |
| `Mailbox` | `handleScancode` |
| `Cadence` | The `render_core` timing rule. |
| `FileItems` | The entry record, the ordering, the extension test, and how a listing is built and sorted. |
| `Navigation` | The cursor, its handlers, the path edits and one browser pass. |
| `PrefStore` | The preference file: its byte layout, `sys_set_pref` and `sys_get_pref`. |

Outside effects are parameters:

- **Clock:** the readings of `time_us_64` are a sequence of numbers.
- **Directory reads:** the results of `f_readdir` are a sequence of entries or errors.
- **Controls:** the gamepad state and the keyboard mailbox word form a `Controls` value.
- **Preference file:**
  - the file is a sequence of records
  - an `Io` value says whether `f_open` succeeds and which `f_read` call fails first, if any
  - the uninitialised stack buffers of `sys_get_pref` are a `Stack` value

`sys_get_pref` can loop forever. This happens when no record matches, the key left in the stale buffers does not match either, and no read ever fails. The model reports this case as the outcome `Hangs`.

Four behaviours of the code that a reader might not expect, and that the model follows:

- **Sorting.** The listing is sorted with `qsort` (src/main.cpp:182), which is not stable. The model claims only that the result is a sorted permutation.
- **Poll cadence.** The loop is commented `// 60 FPS loop` (src/main.cpp:51) and the poll `// Every 5th frame` (src/main.cpp:65). But the TFT refresh and the poll keep separate remembered ticks, so the poll does not fire exactly once per five refreshes. `Cadence.CadencesAreIndependent` gives a run where each fires once.
- **Read errors while listing.** The read loop (src/main.cpp:169-172) stops at the first failed read, and the browser shows the entries read so far. `FileItems.Collect` does the same.
- **The "Too many files" message.** The `total_files > max_files` branch at src/main.cpp:184 is never taken, because the read loop stops at 500 entries. `FileItems.Listing` proves the listing never exceeds 500 entries.

## Model

| member | source | states |
|---|---|---|
| Mailbox.LatestWins | src/main.cpp:30-35 | Every interrupt is reported as accepted. After any burst of scancodes, the mailbox holds the most recent nonzero one. If all of them were zero, it holds what it held before. |
| Mailbox.TwoEventsOneRead | src/main.cpp:27-35 | Two key events before one read: the reader sees only the second, unless the second was zero. |
| Cadence.Fires | src/main.cpp:57-70 | The firings are among the clock readings, and there are no more of them than readings. |
| Cadence.FiresSpaced | src/main.cpp:66-69 | The action never fires before a full period after the remembered tick. Any two successive firings are at least one period apart. |
| Cadence.FiresCount | src/main.cpp:66-69 | Over readings that never pass a horizon, the action fires at most (horizon - last) / period times. |
| Cadence.FiresKeepUp | src/main.cpp:66-69 | The action keeps up with the clock. When readings are never more than `gap` apart, and the reading before the run was not yet due, a run that ends at reading L holds at least (L - last) / (period + gap) firings. |
| Cadence.PollsKeepUp | src/main.cpp:53-70 | With successive clock readings at most `gap` apart, a run from the first reading to L calls `nespad_read` at least (L - first) / (five frames + gap) times. With `FiresCount`, that is at most (L - first) / five frames. |
| Cadence.PollLoop | src/main.cpp:53-73 | The loop calls `nespad_read` at exactly the firing readings of the five-frame rule, starting from the reading taken before the loop. Successive polls are at least five frames apart. |
| Cadence.CadencesAreIndependent | src/main.cpp:54-69 | The refresh cadence and the poll cadence keep separate ticks: one reading a poll period after the start fires each of them once. |
| CString.Strncpy | src/main.cpp:177 | `strncpy` writes exactly n bytes. They hold the source's C string cut at n characters, followed by NUL padding. |
| CString.StrncpyIdempotent | src/hid_server/hci_transport_esp32.cpp:161 | Copying a buffer that `strncpy` filled, with the same length, gives the same bytes back. |
| CString.StrcmpZero | src/main.cpp:110 | `strcmp` reports equality exactly when the two C strings are equal. |
| CString.StrcmpAntisymmetric | src/main.cpp:97 | Swapping the arguments of `strcmp` flips the sign of its result. |
| CString.StrcmpTransitive | src/main.cpp:97 | The "at most" relation given by `strcmp` is transitive. |
| CString.StrcmpLexicographic | src/main.cpp:97 | `strcmp` orders C strings lexicographically. When two strings agree on their first k characters, the one that ends there comes first; otherwise the smaller character at k decides. |
| CString.StrncmpZero | src/hid_server/hci_transport_esp32.cpp:159 | `strncmp` over n characters is zero exactly when the two C strings agree on their first n characters. |
| CString.LastIndexOf | src/main.cpp:101 | `strrchr` returns None exactly when the character is absent. Otherwise it returns an index holding the character, with no further occurrence after it. |
| CString.Tokens | src/main.cpp:107-113 | Every token is non-empty and contains no separator. A NUL-free string yields NUL-free tokens. |
| CString.TokensOfJoin | src/main.cpp:107-113 | Non-empty, separator-free tokens joined by the bar separator split back into the same tokens. |
| CString.Strtok | src/main.cpp:107 | One `strtok` call keeps the buffer's length. It leaves the part before the saved position untouched and never removes a NUL. A NULL answer leaves the buffer unchanged. A token moves the saved position forward. |
| CString.StrtokYields | src/main.cpp:107-113 | Each `strtok` call hands out the first token still visible from its saved position. The tokens visible afterwards are the remaining ones. A NULL answer means no token was left. |
| CString.MatchTokens | src/main.cpp:107-116 | The matching loop keeps the buffer's length and leaves the part before its starting position untouched. |
| CString.MatchTokensFinds | src/main.cpp:109-116 | The matching loop reports a match exactly when the word is among the tokens visible from its starting position. |
| FileItems.CompareIsTotalPreorder | src/main.cpp:88-98 | `compareFileItems` puts every directory before every file. It is antisymmetric and transitive. It ties exactly the entries that agree on directory-ness and on the name. |
| FileItems.CompareAlphabetical | src/main.cpp:96-97 | Among entries of the same kind the order is alphabetical. When two names agree on their first k characters, the name that ends there comes first; otherwise the one with the smaller character at k does. |
| FileItems.InsertKeepsSorted | src/main.cpp:182 | Inserting into a sorted listing keeps it sorted and adds exactly the one entry. |
| FileItems.SortItemsSorts | src/main.cpp:182 | After the `qsort`, the listing is sorted by `compareFileItems` and holds exactly the entries it held before, as a multiset. |
| FileItems.IsExecutable | src/main.cpp:100-117 | A name without a `.` is never executable. A name is executable exactly when the text after its last `.` is one of the extensions. |
| FileItems.IsExecutableInPlace | src/main.cpp:100-117 | The test as written: the extension string is handed to `strtok` and comes back with the same length. |
| FileItems.InPlaceAgrees | src/main.cpp:100-117 | On an untouched extension string, the test as written gives the same answer as the token-list test. |
| FileItems.InPlaceKeepsFirstToken | src/main.cpp:107 | After one test of a name containing a `.`, the extension string reads as its first token only. |
| FileItems.MatchTokensKeepsNul | src/main.cpp:113 | Later `strtok` calls only turn separators into NULs; NULs already in the buffer stay. |
| FileItems.InPlaceForgetsLaterExtensions | src/main.cpp:176 | Once `isExecutable` has run on one name containing a `.`, every later call against the same extension string accepts only the first extension. |
| FileItems.InPlaceCounterexample | src/main.cpp:107-113 | For any two distinct extensions, a name ending in the second is executable by the token-list test but rejected by the test as written once it has run on another name containing a `.`. |
| FileItems.Readable | src/main.cpp:169-172 | The read loop continues through exactly the results before the first error or empty name. |
| FileItems.Collect | src/main.cpp:169-179 | The loop keeps as many entries as there is room for, up to the first error or end marker. Entry k is made from read result k. |
| FileItems.MakeItem | src/main.cpp:173-177 | An entry keeps the directory flag and size it was read with. Its name is the first 78 characters of the name read, and reads back unchanged as a C string. It is executable by the extension test applied to the whole name, before the cut. |
| FileItems.Listing | src/main.cpp:162-179 | The listing never holds more than 500 entries. Its size is min(500, ".." plus the readable results). It starts with `..` whenever the path is not the root. |
| FileItems.ListingEntries | src/main.cpp:169-179 | After the optional `..`, entry k is made from read result k, in read order. |
| FileItems.OpenDirectory | src/main.cpp:157-182 | A failed `f_opendir` gives no listing. Otherwise the listing is sorted and is a permutation of the entries read. It has at most 500 entries, directories come first, and it contains `..` unless the path is the root. |
| Navigation.Down | src/main.cpp:226-235 | DOWN moves exactly when an entry lies below the highlight, and then by one entry. It keeps the page when the page has a row left, and scrolls otherwise. It keeps the cursor valid. |
| Navigation.Up | src/main.cpp:237-244 | UP moves exactly when the highlight is not on the first entry, and then back by one entry. It never increases the row or the offset. |
| Navigation.UpKeepsValid | src/main.cpp:237-244 | UP keeps the cursor valid. |
| Navigation.UpUndoesDown | src/main.cpp:226-244 | UP after a DOWN that moved returns to the entry the highlight started on, with a valid cursor. |
| Navigation.RightAsWritten | src/main.cpp:246-251 | RIGHT as written keeps the row, never moves more than a page, and puts the highlight on the last entry whenever it pulls the page back. On a non-empty listing it keeps the cursor valid. |
| Navigation.RightAsWrittenLeavesListing | src/main.cpp:246-251 | On an empty listing, RIGHT as written turns the valid start cursor into offset -1, an invalid cursor whose index is -1. |
| Navigation.Right | src/main.cpp:246-251 | RIGHT as intended keeps the row and moves at most one page forward, never before the start. It keeps the cursor valid. When it is cut short, it stops on the last entry, or at (0, 0) on an empty listing. |
| Navigation.RightAgreesOnNonEmpty | src/main.cpp:246-251 | On a non-empty listing with a valid cursor, the intended RIGHT is exactly the RIGHT as written. |
| Navigation.Left | src/main.cpp:253-261 | LEFT never moves forward and never before the first entry. The new offset is the old one less a page, floored at 0. The row is kept unless the cursor lands on (0, 0). The cursor reaches the first entry exactly when the offset was at most one page. |
| Navigation.LeftKeepsValid | src/main.cpp:253-261 | LEFT keeps the cursor valid. |
| Navigation.LeftUndoesRight | src/main.cpp:246-261 | LEFT after a RIGHT that moved a whole page gives back the same cursor. From the first page, it gives the first entry instead. |
| Navigation.PageRowsAsWritten | src/main.cpp:288-289 | The drawing loop reads `per_page` table indices: exactly the integers from `offset` up to `offset + per_page`. The highlighted entry is among them. |
| Navigation.RightTimesWholePages | src/main.cpp:246-251 | On the full 500-entry table, RIGHT presses as written that stay short of the last entry each move exactly one page. |
| Navigation.PageRowsOverrunTable | src/main.cpp:246-289 | On a full table, nineteen RIGHT presses as written give the valid cursor (499, 0). The drawing loop then reads table index 525, beyond the 500 entries. |
| Navigation.PageRows | src/main.cpp:288-289 | The intended rows start at `offset`, are at most `per_page` of them, lie inside the listing, and stop only at its end. They are a prefix of the rows read as written. |
| Navigation.PageRowsInTable | src/main.cpp:288-289 | With a valid cursor, every intended row lies inside the 500-entry table, and the highlighted entry is among the rows. |
| Navigation.Enter | src/main.cpp:275 | Entering a directory extends the path by one component. The old path stays in front. When the name has no backslash, the new path's last backslash sits right after the old path, and the name is everything that follows it. |
| Navigation.Parent | src/main.cpp:268-272 | `..` cuts the path just before its last backslash. A path without a backslash is kept unchanged. |
| Navigation.ParentOfEnter | src/main.cpp:266-276 | Entering a directory whose name has no backslash, then taking `..`, restores the path. |
| Navigation.DownUp | src/main.cpp:226-244 | DOWN then UP, as the loop tests them, keep the cursor valid. Neither pressed moves nothing. |
| Navigation.Move | src/main.cpp:226-261 | The four handlers, applied in the order the loop tests them (with the intended RIGHT), keep the cursor valid. With no direction pressed, nothing moves. |
| Navigation.MoveAsWritten | src/main.cpp:226-261 | The four handlers as written, with the RIGHT of src/main.cpp:246-251. With no direction pressed, nothing moves. |
| Navigation.MoveAsWrittenAgrees | src/main.cpp:226-261 | On a non-empty listing with a valid cursor, the handlers as written move exactly as `Move` does, and so keep the cursor valid. |
| Navigation.MoveAsWrittenLeavesTable | src/main.cpp:246-264 | On an empty listing, a pass with RIGHT and without LEFT leaves the cursor invalid, on index -1. That is before the start of the table that START reads at src/main.cpp:264. |
| Navigation.ItemAt | src/main.cpp:264 | Reading the 500-entry table at an index inside it: inside the listing, the listing's entry. Only a listing entry can be a directory or executable, because the slots past the listing are zero-filled (src/main.cpp:130). |
| Navigation.OpenBrowser | src/main.cpp:119-189 | Opening the browser on a path: no browser when `f_opendir` fails. Otherwise a sorted listing that is a permutation of the entries read, at most 500 of them, with `..` unless the path is the root. The cursor is on the first entry and valid, and `debounce` is what was carried in (true on entry, false after a directory change at src/main.cpp:277). |
| Navigation.PathOf | src/main.cpp:275 | The path of an entry extends the base path. When the entry's name has no backslash, taking `..` from it gives the base path back. |
| Navigation.Step | src/main.cpp:192-286 | One pass of the loop quits exactly on ESC. Staying changes neither the path nor the listing, leaves the cursor where the arrow handlers move it (`Move`), and keeps the browser's invariant (listing within the table, valid cursor). The next `debounce` is armed exactly when it was already armed or START/ENTER is not held. The pass reopens exactly when START is armed and pressed on a directory: on `..` it reopens the parent path, on any other directory the path extended by the name. It ends with `Launch` exactly when START is armed and pressed on an executable file; `Launch` records the full path the firmware formats into `tmp` (src/main.cpp:282) and then discards. |
| Navigation.StartReadsListing | src/main.cpp:263-264 | On a non-empty listing, with the browser's invariant, the entry START reads lies inside the listing, never in a blank slot of the table. |
| Navigation.HeldStartIsIgnored | src/main.cpp:194-196 | While `debounce` is not re-armed, a held START or ENTER neither opens nor launches anything, and the pass leaves `debounce` unarmed. |
| Navigation.ReleaseRearms | src/main.cpp:194-196 | A pass with neither ESC nor START/ENTER stays in the loop and re-arms `debounce`. |
| Navigation.EnterIgnoredAfterReopen | src/main.cpp:263-279 | After a directory change, the browser reopened on the new path (with `debounce` false) ignores the ENTER still in the mailbox: it neither opens nor launches, and stays unarmed. |
| Navigation.EnterChild | src/main.cpp:263-279 | START, armed, on an ordinary directory reopens the browser on the base path extended by the directory's name. |
| Navigation.LeaveByDotDot | src/main.cpp:263-273 | START, armed, on the `..` entry reopens the browser on the parent path. |
| Navigation.EnterThenLeave | src/main.cpp:263-279 | START on an ordinary directory reopens the browser on it, and the reopened listing holds `..`. Once that browser has been re-armed, START on `..` brings it back to the path it started from. |
| PrefStore.Slot | src/hid_server/hci_transport_esp32.cpp:193-196 | A written slot is 256 bytes and holds the string cut to 256 characters. |
| PrefStore.FlattenParse | src/hid_server/hci_transport_esp32.cpp:176-196 | A file of full records is 512 bytes per record. Reading its bytes back as key and value slots gives the records. |
| PrefStore.FirstMatch | src/hid_server/hci_transport_esp32.cpp:176-191 | The index found is the first record whose key slot matches. None means no record matches. |
| PrefStore.SetPref | src/hid_server/hci_transport_esp32.cpp:169-199 | A failed open, or a failed read, leaves the file unchanged. An overwrite of record i happens only when the 2i + 1 scan reads before it succeed, and an append only when all 2n scan reads of an n-record file succeed; when those reads succeed the call writes. Without failures the call always writes. An overwrite replaces only the value of the first matching record. An append happens only when no record matches, and adds one record at the end. |
| PrefStore.SetPrefLoop | src/hid_server/hci_transport_esp32.cpp:176-196 | The loop as written gives the outcome `SetPref` describes. |
| PrefStore.SetPrefSize | src/hid_server/hci_transport_esp32.cpp:176-196 | A successful append grows the file by 512 bytes. Anything else keeps its size. |
| PrefStore.SetPrefOverwriteBytes | src/hid_server/hci_transport_esp32.cpp:181-183 | An overwrite of record i rewrites only the 256 bytes at offset 512i + 256, the value slot after the matching key. |
| PrefStore.SetPrefAppendBytes | src/hid_server/hci_transport_esp32.cpp:193-196 | An append adds the key slot and then the value slot after the old contents. |
| PrefStore.MatchesSlot | src/hid_server/hci_transport_esp32.cpp:181 | A key matches a full key slot exactly when the two agree on their first 256 characters. |
| PrefStore.SetPrefKeepsKeysDistinct | src/hid_server/hci_transport_esp32.cpp:176-196 | If no two records share a key, a set keeps it that way. |
| PrefStore.CmpLen | src/hid_server/hci_transport_esp32.cpp:159 | The comparison length is the smaller of 256 and `max_len`. |
| PrefStore.CopyLen | src/hid_server/hci_transport_esp32.cpp:161 | The copy length is the smaller of 256 and `max_len`. |
| PrefStore.Delivered | src/hid_server/hci_transport_esp32.cpp:143-161 | The caller's buffer holds the lone NUL when nothing is copied. Otherwise it holds n bytes, which read as the value cut to n characters as long as a NUL follows them. |
| PrefStore.DeliveredUnterminated | src/hid_server/hci_transport_esp32.cpp:161 | When the stored value has n or more characters, the n bytes `strncpy` delivers hold no NUL: the caller's buffer is left unterminated. |
| PrefStore.GetPref | src/hid_server/hci_transport_esp32.cpp:141-167 | A failed open returns 0 with an empty string. With a first match at record i, the call returns 256 and that record's value if its reads succeed, and 0 with an empty string otherwise. The returned count is always 0 or 256. When no record matches, a returned count is 0, and a failing read before the end of the file gives 0 with an empty string; on a non-empty file any failing read, even one after the end of the file, gives 0 with an empty string. The call loops forever exactly when the open succeeds, no read fails, no record matches, and either the file is non-empty or the stale stack key does not match. |
| PrefStore.GetPrefLoop | src/hid_server/hci_transport_esp32.cpp:150-165 | The loop as written, up to the end of the file and then over the stale buffers, gives the outcome `GetPref` describes. |
| PrefStore.GetAbsentKeyHangs | src/hid_server/hci_transport_esp32.cpp:150-165 | Looking up a key that no record holds, in a non-empty file that never fails to read, never returns. |
| PrefStore.SetFindsWritten | src/hid_server/hci_transport_esp32.cpp:176-196 | After a successful set, the first record matching the key is the one just written. |
| PrefStore.SetThenGet | src/hid_server/hci_transport_esp32.cpp:141-199 | Round trip: after a successful `sys_set_pref(key, value)`, `sys_get_pref(key)` with a buffer of at least 256 characters and no failing I/O returns 256 and the value's 256-byte slot, which reads as the value cut to 256 characters when a NUL follows it (for a value of 256 characters or more it has none of its own, see `DeliveredUnterminated`). |

## Left out

- The F10 / A button USB drive mode (src/main.cpp:203-224): it drives the USB stack and sleeps, and it changes no browser state.
- All drawing: the window, the status line, the entry colours, the size line, and `sleep_ms`. Of the drawing loop, only the table indices it reads are modelled.
- Overflow of the 256-byte `basepath` buffer and the `sprintf` that builds `basepath` from itself, with overlapping source and destination (src/main.cpp:275): paths are unbounded sequences.
- `strtok` writing into a string literal: the extension string is modelled as a writable buffer.
- `size_t` and `FSIZE_t` widths: sizes are natural numbers. `fattrib & AM_DIR` is a boolean.
- The rest of the firmware is not part of this model:
  - `main()` and `render_core`'s graphics and semaphore set-up
  - multicore lock-out
  - the emulator loop
  - the HCI transport
  - the ESP32 NVS branch of `sys_get_pref` / `sys_set_pref`

  `filebrowser` is not reachable from `main()` as written, because the `emu_loop` loop before it never ends (src/main.cpp:401-405). Its only call site passes `"uf2"`.
- `printf` diagnostics and `f_close`.
- Preference files whose size is not a multiple of 512 bytes: every `PrefStore` operation requires `WellFormed`.
- Mailbox.LatestWins: the mailbox is a single word, and how the two cores see it is not modelled. `HandleScancode` has no contract of its own; `LatestWins` states what it does.
- Cadence.PollLoop: the readings are unbounded naturals, so the `uint64_t` wrap of `last_input_tick + frame_tick * 5` is not modelled. The `TFT` refresh is modelled only as `Fires` with a one-frame period.
- CString.Strcmp: gives only the sign (-1, 0 or 1) of C's result, because every caller tests only the sign. Characters compare by code point.
- FileItems.SortItemsSorts: `qsort` is modelled by an insertion sort, so only "sorted permutation" is claimed. The order among tied entries is unspecified in C.
- FileItems.IsExecutableInPlace: its own contract states only that the buffer keeps its length. Its answers are stated by `InPlaceAgrees`, `InPlaceKeepsFirstToken`, `InPlaceForgetsLaterExtensions` and `InPlaceCounterexample`.
- CString.MatchTokens: its own contract states only what happens to the buffer. Its answer is stated by `MatchTokensFinds`.
- Cadence.Fires: its own contract states only that the firings are among the readings. `FiresSpaced` and `FiresCount` bound the firings from above, and `FiresKeepUp` and `PollsKeepUp` from below. No lemma states which reading fires next.
- FileItems.Compare: has no contract of its own; `CompareIsTotalPreorder` states its properties.
- FileItems.MakeItem: judges `is_executable` by the token-list `IsExecutable`, the corrected test of the first Findings row, not by the `strtok` test as written. `Listing`, `OpenDirectory`, `OpenBrowser` and `Step` therefore rest on the corrected test. The test as written is `IsExecutableInPlace`.
- Navigation.Move: uses the intended RIGHT (`Right`), the corrected member of the second Findings row. The handlers as written are `MoveAsWritten`; `MoveAsWrittenAgrees` shows the two agree on any non-empty listing.
- Navigation.Step: moves the cursor with `Move`, so it uses the intended RIGHT. On an empty root listing, the pass as written puts the cursor on index -1 (`MoveAsWrittenLeavesTable`). The drawing loop then reads `fileItems[-1]`, and so does a later START; that read outside the table is not modelled. `Step` requires the invariant `Ready` (a listing of at most 500 entries and a valid cursor). `OpenBrowser` establishes it and `Step` keeps it. The reads of the drawing loop are not part of `Step` (third Findings row). `Launch` and `Quit` look the same to the caller of `filebrowser`, which returns nothing; only the model tells them apart.
- Page size: `per_page` is `TEXTMODE_ROWS - 3` (src/main.cpp:124). graphics.h is not part of this model, so `TEXTMODE_ROWS` is taken as 30, inferred from the status line drawn on row 29 (src/main.cpp:138). The numbers of the third Findings row (offset 499, index 525) depend on that value.
- Navigation.PathOf: a launch carries the whole path, of unbounded length. The firmware formats it with `sprintf` into `tmp`, which holds `TEXTMODE_COLS + 1` bytes (src/main.cpp:122, 282), and overflows that buffer for long paths. The overflow is not modelled.
- Control snapshot: a pass sees one snapshot of the pad state and the mailbox word. The firmware re-reads `nespad_state` and `input` at every test, and the other core or the keyboard interrupt can change them between two tests of the same pass. That is not modelled.
- PrefStore.Delivered: the model reads a sequence past its end as NUL, so the n copied bytes read back as the value cut to n characters. In C, when the value has n or more characters, `strncpy` leaves the caller's buffer without a terminator. The `printf` at src/hid_server/hci_transport_esp32.cpp:162 and any caller then read past the copied bytes. `DeliveredUnterminated` states the missing NUL; what lies beyond the buffer is not modelled. This applies to `SetThenGet` too.
- PrefStore.GetPref: `max_len` is a natural number. A negative `max_len` (which `strncpy` would turn into a huge length) is not modelled.
- PrefStore.SetPref: `f_write` is taken to write all its bytes. The source ignores its result.

## Findings

| source | as written | input that shows it | evidently intended | confidence | as-written member | corrected member |
|---|---|---|---|---|---|---|
| src/main.cpp:107 | `isExecutable` calls `strtok` on the caller's extension string. `strtok` overwrites the first bar separator with NUL, so after the first name containing a `.`, only the first extension is recognised. | Extensions `nes` and `sms`, joined by a bar. Test `a.nes`, then `b.sms`: `b.sms` is rejected. | Test against every extension, every time (tokenise a copy). | not executed; latent, since the one call site passes `"uf2"`, which has no separator | FileItems.InPlaceCounterexample | FileItems.IsExecutable |
| src/main.cpp:246-251 | RIGHT on an empty listing (a root directory with no entries) sets `offset = total_files - (current_item + 1) = -1`. START then reads `fileItems[-1]`. | An empty root directory; press RIGHT. | Clamp the offset at 0. | not executed | Navigation.RightAsWrittenLeavesListing | Navigation.Right |
| src/main.cpp:288-289 | The drawing loop reads `fileItems[offset + i]` for every page row, even past the last entry. On a full table with `offset` 499, this reads indices 500-525 of a 500-entry array. | A directory of 500 or more entries; press RIGHT nineteen times. | Draw only the rows inside the listing. | not executed | Navigation.PageRowsOverrunTable | Navigation.PageRows |

=== FILE: cadence.dfy ===
/**
 The timing rule of `render_core` in src/main.cpp. The loop reads the
 microsecond clock once per iteration; an action fires when the reading is
 at least `last + period`, and then `last` becomes that reading. The gamepad
 poll uses five frame periods; the TFT build's LCD refresh uses one.

 Time is a finite sequence of clock readings; the first one is the reading
 taken before the loop, which also initialises `last`.
 */
module Cadence {

  /** One 60 Hz frame, in microseconds. */
  const FrameTick: nat := 16666

  /** The gamepad is read every fifth frame. */
  const PollPeriod: nat := FrameTick * 5

  /** The readings at which the action fires, starting from the remembered tick `last`. */
  function Fires(period: nat, last: nat, ticks: seq<nat>): (fired: seq<nat>)
    ensures |fired| <= |ticks|
    ensures forall k | 0 <= k < |fired| :: fired[k] in ticks
    decreases |ticks|
  {
    if |ticks| == 0 then []
    else if ticks[0] >= last + period then
      var rest := Fires(period, ticks[0], ticks[1..]);
      assert forall k | 0 <= k < |rest| :: rest[k] in ticks;
      [ticks[0]] + rest
    else
      var rest := Fires(period, last, ticks[1..]);
      assert forall k | 0 <= k < |rest| :: rest[k] in ticks;
      rest
  }

  /**
   The action never fires before a full period has passed since `last`, and
   any two successive firings are at least one period apart, whatever the
   readings are.
   */
  lemma {:induction false} FiresSpaced(period: nat, last: nat, ticks: seq<nat>)
    ensures var f := Fires(period, last, ticks);
            && (|f| > 0 ==> last + period <= f[0])
            && (forall k | 0 < k < |f| :: f[k - 1] + period <= f[k])
    decreases |ticks|
  {
    if |ticks| > 0 {
      if ticks[0] >= last + period {
        FiresSpaced(period, ticks[0], ticks[1..]);
      } else {
        FiresSpaced(period, last, ticks[1..]);
      }
    }
  }

  /**
   Over readings that never pass `horizon`, the action fires at most
   (horizon - last) / period times.
   */
  lemma {:induction false} FiresCount(period: nat, last: nat, ticks: seq<nat>, horizon: nat)
    requires forall i | 0 <= i < |ticks| :: ticks[i] <= horizon
    ensures var f := Fires(period, last, ticks);
            |f| == 0 || last + |f| * period <= horizon
    decreases |ticks|
  {
    if |ticks| > 0 {
      if ticks[0] >= last + period {
        var rest := Fires(period, ticks[0], ticks[1..]);
        FiresCount(period, ticks[0], ticks[1..], horizon);
        assert (|rest| + 1) * period == |rest| * period + period;
      } else {
        FiresCount(period, last, ticks[1..], horizon);
      }
    }
  }

  /** The last reading of a run, or `prev` when the run is empty. */
  function LastReading(prev: nat, ticks: seq<nat>): (t: nat)
    ensures |ticks| > 0 ==> t in ticks
  {
    if |ticks| == 0 then prev else ticks[|ticks| - 1]
  }

  /** Each reading comes at most `gap` after the one before it; `prev` is the reading before the run. */
  predicate GapsAtMost(prev: nat, ticks: seq<nat>, gap: nat)
  {
    && (|ticks| > 0 ==> ticks[0] <= prev + gap)
    && forall k | 0 < k < |ticks| :: ticks[k] <= ticks[k - 1] + gap
  }

  /**
   The action keeps up: when the readings are never more than `gap` apart
   and the reading before the run was not yet due, a firing happens at
   least once every `period + gap`, so a run ending at reading L holds at
   least (L - last) / (period + gap) firings.
   */
  lemma {:induction false} FiresKeepUp(period: nat, last: nat, prev: nat, ticks: seq<nat>, gap: nat)
    requires period > 0 && prev < last + period
    requires GapsAtMost(prev, ticks, gap)
    ensures LastReading(prev, ticks) < last + (|Fires(period, last, ticks)| + 1) * (period + gap)
    decreases |ticks|
  {
    if |ticks| > 0 {
      var t, rest := ticks[0], ticks[1..];
      assert GapsAtMost(t, rest, gap) by {
        forall k | 0 < k < |rest|
          ensures rest[k] <= rest[k - 1] + gap
        {
          assert rest[k] == ticks[k + 1] && rest[k - 1] == ticks[k];
        }
        if |rest| > 0 {
          assert rest[0] == ticks[1];
        }
      }
      assert LastReading(t, rest) == LastReading(prev, ticks);
      if t >= last + period {
        FiresKeepUp(period, t, t, rest, gap);
        var n := |Fires(period, t, rest)|;
        assert |Fires(period, last, ticks)| == n + 1;
        assert (n + 2) * (period + gap) == (n + 1) * (period + gap) + (period + gap);
      } else {
        FiresKeepUp(period, last, t, rest, gap);
      }
    }
  }

  /**
   The pad-poll loop of render_core over a finite run of clock readings:
   readings[0] is taken before the loop and seeds last_input_tick, and each
   iteration tests the current reading before taking the next one.
   Returns the readings at which nespad_read was called.
   */
  method PollLoop(readings: seq<nat>) returns (polls: seq<nat>)
    requires |readings| > 0
    ensures polls == Fires(PollPeriod, readings[0], readings)
    ensures |polls| > 0 ==> readings[0] + PollPeriod <= polls[0]
    ensures forall k | 0 < k < |polls| :: polls[k - 1] + PollPeriod <= polls[k]
  {
    var lastInputTick: nat := readings[0];
    polls := [];
    var i := 0;
    while i < |readings|
      invariant 0 <= i <= |readings|
      invariant polls + Fires(PollPeriod, lastInputTick, readings[i..]) == Fires(PollPeriod, readings[0], readings)
    {
      var tick := readings[i];
      FiresStep(PollPeriod, lastInputTick, readings, i);
      if tick >= lastInputTick + PollPeriod {
        assert polls + ([tick] + Fires(PollPeriod, tick, readings[i + 1..]))
            == (polls + [tick]) + Fires(PollPeriod, tick, readings[i + 1..]);
        polls := polls + [tick];
        lastInputTick := tick;
      }
      i := i + 1;
    }
    assert readings[i..] == [];
    assert polls + [] == polls;
    FiresSpaced(PollPeriod, readings[0], readings);
  }

  /**
   The poll keeps up with the clock: when successive readings are at most
   `gap` apart, a run from readings[0] to its last reading L holds at
   least (L - readings[0]) / (PollPeriod + gap) polls; with FiresCount, at
   most (L - readings[0]) / PollPeriod.
   */
  lemma PollsKeepUp(readings: seq<nat>, gap: nat)
    requires |readings| > 0
    requires forall k | 0 < k < |readings| :: readings[k] <= readings[k - 1] + gap
    ensures var polls := Fires(PollPeriod, readings[0], readings);
            readings[|readings| - 1] < readings[0] + (|polls| + 1) * (PollPeriod + gap)
  {
    FiresKeepUp(PollPeriod, readings[0], readings[0], readings, gap);
  }

  /** One reading of the loop: it fires or not, and the rest of the readings follow. */
  lemma FiresStep(period: nat, last: nat, readings: seq<nat>, i: nat)
    requires i < |readings|
    ensures readings[i] >= last + period ==>
              Fires(period, last, readings[i..]) == [readings[i]] + Fires(period, readings[i], readings[i + 1..])
    ensures readings[i] < last + period ==>
              Fires(period, last, readings[i..]) == Fires(period, last, readings[i + 1..])
  {
    assert readings[i..][1..] == readings[i + 1..];
  }

  /**
   The refresh and poll cadences keep separate remembered ticks, so the poll
   does not fire once per five refreshes in general: one reading a poll
   period after the start fires both exactly once.
   */
  lemma CadencesAreIndependent()
    ensures Fires(FrameTick, 0, [0, PollPeriod]) == [PollPeriod]
    ensures Fires(PollPeriod, 0, [0, PollPeriod]) == [PollPeriod]
  {
    assert [0, PollPeriod][1..] == [PollPeriod];
    assert [PollPeriod][1..] == [];
  }
}

=== FILE: cstring.dfy ===
/**
 The C library string routines the firmware relies on, over `seq<char>`.

 A C string stored in a buffer is the part of the buffer before the first
 NUL; reading past the end of a sequence yields NUL, as if every sequence
 carried its terminator. Characters compare by code point, which agrees
 with C's `unsigned char` comparison on byte-sized characters.
 */
module CString {
  import opened Wrappers

  /** The C string terminator. */
  const Nul: char := '\0'

  /** The separator the extension list uses. */
  const Bar: char := '|'

  /** The character at index i, or NUL past the end. */
  function At(s: seq<char>, i: nat): char
  {
    if i < |s| then s[i] else Nul
  }

  /** The C string held in buffer b: everything before its first NUL. */
  function CView(b: seq<char>): (r: seq<char>)
    ensures |r| <= |b| && r == b[..|r|]
    ensures Nul !in r
    ensures |r| < |b| ==> b[|r|] == Nul
  {
    if |b| == 0 || b[0] == Nul then [] else [b[0]] + CView(b[1..])
  }

  /** At most the first n characters of s. */
  function Trunc(s: seq<char>, n: nat): (r: seq<char>)
    ensures |r| == Min(|s|, n) && r == s[..|r|]
  {
    if |s| <= n then s else s[..n]
  }

  lemma CViewOfString(s: seq<char>)
    requires Nul !in s
    ensures CView(s) == s
  {
  }

  /** A suffix of a NUL-free string is NUL-free. */
  lemma NulFreeSuffix(s: seq<char>, i: nat)
    requires Nul !in s && i <= |s|
    ensures Nul !in s[i..]
  {
    assert forall k | 0 <= k < |s| - i :: s[i..][k] == s[i + k];
  }

  /** A NUL-free prefix followed by a NUL (or by nothing) is the C string of the whole. */
  lemma {:induction false} CViewTerminated(c: seq<char>, t: seq<char>)
    requires Nul !in c
    requires |t| == 0 || t[0] == Nul
    ensures CView(c + t) == c
    decreases |c|
  {
    if |c| == 0 {
      assert c + t == t;
    } else {
      assert (c + t)[0] == c[0];
      assert (c + t)[1..] == c[1..] + t;
      assert c[0] in c;
      CViewTerminated(c[1..], t);
    }
  }

  /** A NUL-free prefix passes through to the C string of the whole. */
  lemma {:induction false} CViewAppend(c: seq<char>, t: seq<char>)
    requires Nul !in c
    ensures CView(c + t) == c + CView(t)
    decreases |c|
  {
    if |c| == 0 {
      assert c + t == t;
    } else {
      assert (c + t)[0] == c[0];
      assert (c + t)[1..] == c[1..] + t;
      assert c[0] in c;
      CViewAppend(c[1..], t);
      assert c + CView(t) == [c[0]] + (c[1..] + CView(t));
    }
  }

  /** Splitting a buffer at j, when no NUL lies in b[i..j]. */
  lemma CViewSplit(b: seq<char>, i: nat, j: nat)
    requires i <= j <= |b|
    requires forall k | i <= k < j :: b[k] != Nul
    ensures CView(b[i..]) == b[i..j] + CView(b[j..])
  {
    assert b[i..] == b[i..j] + b[j..];
    CViewAppend(b[i..j], b[j..]);
  }

  /**
   strncpy(dst, src, n): the n bytes it writes into dst. It copies the
   C string in src, cut at n characters, and pads with NULs up to n.
   */
  function Strncpy(src: seq<char>, n: nat): (r: seq<char>)
    ensures |r| == n
    ensures CView(r) == Trunc(CView(src), n)
    ensures forall i | |CView(src)| <= i < n :: r[i] == Nul
  {
    var c := Trunc(CView(src), n);
    var pad := seq(n - |c|, _ => Nul);
    CViewTerminated(c, pad);
    c + pad
  }

  /** Copying a buffer that strncpy filled, with the same length, gives it back. */
  lemma StrncpyIdempotent(s: seq<char>, n: nat)
    ensures Strncpy(Strncpy(s, n), n) == Strncpy(s, n)
  {
    var r := Strncpy(s, n);
    var rr := Strncpy(r, n);
    assert CView(rr) == CView(r);
    forall i | 0 <= i < n
      ensures rr[i] == r[i]
    {
      if i < |CView(r)| {
        assert rr[i] == CView(rr)[i];
      }
    }
  }

  /** The sign of strcmp(a, b): character by character, stopping at the terminator. */
  function Strcmp(a: seq<char>, b: seq<char>): (r: int)
    ensures -1 <= r <= 1
    decreases |a|
  {
    var x, y := At(a, 0), At(b, 0);
    if x != y then (if x < y then -1 else 1)
    else if x == Nul then 0
    else Strcmp(a[1..], b[1..])
  }

  /** The sign of strncmp(a, b, n): as strcmp, but looking at no more than n characters. */
  function Strncmp(a: seq<char>, b: seq<char>, n: nat): (r: int)
    ensures -1 <= r <= 1
    decreases n
  {
    if n == 0 then 0
    else
      var x, y := At(a, 0), At(b, 0);
      if x != y then (if x < y then -1 else 1)
      else if x == Nul then 0
      else Strncmp(a[1..], b[1..], n - 1)
  }

  lemma CViewCons(s: seq<char>)
    requires |s| > 0 && s[0] != Nul
    ensures CView(s) == [s[0]] + CView(s[1..])
  {
  }

  /** strcmp reports equality exactly when the two C strings are equal. */
  lemma {:induction false} StrcmpZero(a: seq<char>, b: seq<char>)
    ensures Strcmp(a, b) == 0 <==> CView(a) == CView(b)
    decreases |a|
  {
    var x, y := At(a, 0), At(b, 0);
    if x == Nul {
      assert CView(a) == [];
    }
    if y == Nul {
      assert CView(b) == [];
    }
    if x != y {
      if x != Nul && y != Nul {
        assert CView(a)[0] == x && CView(b)[0] == y;
      } else if x == Nul {
        assert CView(b) != [];
      } else {
        assert CView(a) != [];
      }
    } else if x != Nul {
      CViewCons(a);
      CViewCons(b);
      StrcmpZero(a[1..], b[1..]);
    }
  }

  /** Swapping the arguments of strcmp flips its sign. */
  lemma {:induction false} StrcmpAntisymmetric(a: seq<char>, b: seq<char>)
    ensures Strcmp(a, b) == -Strcmp(b, a)
    decreases |a|
  {
    var x, y := At(a, 0), At(b, 0);
    if x == y && x != Nul {
      StrcmpAntisymmetric(a[1..], b[1..]);
    }
  }

  /** strcmp's "at most" is transitive. */
  lemma {:induction false} StrcmpTransitive(a: seq<char>, b: seq<char>, c: seq<char>)
    requires Strcmp(a, b) <= 0 && Strcmp(b, c) <= 0
    ensures Strcmp(a, c) <= 0
    decreases |a|
  {
    var x, y, z := At(a, 0), At(b, 0), At(c, 0);
    if x == y && y == z && x != Nul {
      StrcmpTransitive(a[1..], b[1..], c[1..]);
    }
  }

  /**
   strcmp orders C strings lexicographically: when the two agree on their
   first k characters, a string that ends there comes before a longer one,
   and otherwise the character at k decides.
   */
  lemma {:induction false} StrcmpLexicographic(a: seq<char>, b: seq<char>, k: nat)
    requires k <= |CView(a)| && k <= |CView(b)| && CView(a)[..k] == CView(b)[..k]
    ensures k == |CView(a)| < |CView(b)| ==> Strcmp(a, b) < 0
    ensures k < |CView(a)| && k < |CView(b)| && CView(a)[k] < CView(b)[k] ==> Strcmp(a, b) < 0
    decreases k
  {
    if k == 0 {
      if |CView(b)| > 0 {
        assert At(b, 0) == CView(b)[0] != Nul;
        if |CView(a)| > 0 {
          assert At(a, 0) == CView(a)[0];
        } else {
          assert At(a, 0) == Nul;
        }
      }
    } else {
      CViewCons(a);
      CViewCons(b);
      assert a[0] == CView(a)[0] == CView(b)[0] == b[0];
      assert CView(a[1..])[..k - 1] == CView(a)[1..k] == CView(b)[1..k] == CView(b[1..])[..k - 1];
      StrcmpLexicographic(a[1..], b[1..], k - 1);
    }
  }

  /** strncmp(a, b, n) is zero exactly when the C strings agree on their first n characters. */
  lemma {:induction false} StrncmpZero(a: seq<char>, b: seq<char>, n: nat)
    ensures Strncmp(a, b, n) == 0 <==> Trunc(CView(a), n) == Trunc(CView(b), n)
    decreases n
  {
    if n > 0 {
      var x, y := At(a, 0), At(b, 0);
      if x == Nul {
        assert CView(a) == [];
      }
      if y == Nul {
        assert CView(b) == [];
      }
      if x != y {
        if x != Nul && y != Nul {
          assert Trunc(CView(a), n)[0] == x && Trunc(CView(b), n)[0] == y;
        } else if x == Nul {
          assert |Trunc(CView(b), n)| > 0;
        } else {
          assert |Trunc(CView(a), n)| > 0;
        }
      } else if x != Nul {
        CViewCons(a);
        CViewCons(b);
        StrncmpZero(a[1..], b[1..], n - 1);
        var ta, tb := Trunc(CView(a), n), Trunc(CView(b), n);
        assert ta == [x] + Trunc(CView(a[1..]), n - 1);
        assert tb == [y] + Trunc(CView(b[1..]), n - 1);
        if ta == tb {
          assert ta[1..] == tb[1..];
        }
      }
    }
  }

  /** strrchr(s, c): the index of the last occurrence of c, or None. */
  function LastIndexOf(s: seq<char>, c: char): (r: Option<nat>)
    ensures r.None? <==> c !in s
    ensures r.Some? ==> r.value < |s| && s[r.value] == c && c !in s[r.value + 1..]
  {
    if |s| == 0 then None
    else if s[|s| - 1] == c then Some(|s| - 1)
    else
      var r := LastIndexOf(s[..|s| - 1], c);
      assert s == s[..|s| - 1] + [s[|s| - 1]];
      r
  }

  // ---------------------------------------------------------------------
  // Tokens: what strtok(s, "|") yields from an unchanging C string.
  // ---------------------------------------------------------------------

  /** The length of the leading run of non-separator characters of s. */
  function RunEnd(s: seq<char>): (e: nat)
    ensures e <= |s| && Bar !in s[..e] && (e < |s| ==> s[e] == Bar)
  {
    if |s| == 0 || s[0] == Bar then 0
    else
      var e := 1 + RunEnd(s[1..]);
      assert s[..e] == [s[0]] + s[1..][..e - 1];
      e
  }

  /** The maximal non-empty runs of non-separator characters of s, in order. */
  function Tokens(s: seq<char>): (ts: seq<seq<char>>)
    ensures forall t | t in ts :: |t| > 0 && Bar !in t
    ensures Nul !in s ==> forall t | t in ts :: Nul !in t
    decreases |s|
  {
    if |s| == 0 then []
    else if s[0] == Bar then Tokens(s[1..])
    else
      var e := RunEnd(s);
      assert forall c | c in s[e..] :: c in s;
      [s[..e]] + Tokens(s[e..])
  }

  /** The separated list spelling of a token sequence: tokens joined by '|'. */
  function Join(ts: seq<seq<char>>): seq<char>
  {
    if |ts| == 0 then []
    else if |ts| == 1 then ts[0]
    else ts[0] + [Bar] + Join(ts[1..])
  }

  lemma {:induction false} RunEndOfPrefix(t: seq<char>, u: seq<char>)
    requires Bar !in t
    requires |u| == 0 || u[0] == Bar
    ensures RunEnd(t + u) == |t|
    decreases |t|
  {
    if |t| > 0 {
      assert (t + u)[0] == t[0];
      assert t[0] in t;
      assert (t + u)[1..] == t[1..] + u;
      RunEndOfPrefix(t[1..], u);
    } else {
      assert t + u == u;
    }
  }

  /** A run of non-separators ended by a separator (or by nothing) is one whole token. */
  lemma TokensLeadingRun(t: seq<char>, u: seq<char>)
    requires |t| > 0 && Bar !in t
    requires |u| == 0 || u[0] == Bar
    ensures Tokens(t + u) == [t] + Tokens(u)
  {
    var s := t + u;
    RunEndOfPrefix(t, u);
    assert t[0] in t;
    assert s[0] == t[0];
    assert s[..|t|] == t;
    assert s[|t|..] == u;
  }

  lemma TokensAfterBar(u: seq<char>)
    ensures Tokens([Bar] + u) == Tokens(u)
  {
    assert ([Bar] + u)[1..] == u;
  }

  /** Splitting a joined list gives back the tokens: Join and Tokens are inverse. */
  lemma {:induction false} TokensOfJoin(ts: seq<seq<char>>)
    requires forall i | 0 <= i < |ts| :: |ts[i]| > 0 && Bar !in ts[i]
    ensures Tokens(Join(ts)) == ts
    decreases |ts|
  {
    if |ts| == 1 {
      TokensLeadingRun(ts[0], []);
      assert ts[0] + [] == ts[0];
    } else if |ts| > 1 {
      var rest := Join(ts[1..]);
      assert Join(ts) == ts[0] + ([Bar] + rest);
      TokensLeadingRun(ts[0], [Bar] + rest);
      TokensAfterBar(rest);
      TokensOfJoin(ts[1..]);
      assert ts == [ts[0]] + ts[1..];
    }
  }

  /** Leading separators do not change the tokens. */
  lemma {:induction false} TokensSkipBars(b: seq<char>, i: nat, j: nat)
    requires i <= j <= |b|
    requires forall k | i <= k < j :: b[k] == Bar
    ensures Tokens(CView(b[i..])) == Tokens(CView(b[j..]))
    decreases j - i
  {
    if i < j {
      assert b[i..][0] == Bar;
      CViewCons(b[i..]);
      assert b[i..][1..] == b[i + 1..];
      TokensSkipBars(b, i + 1, j);
    }
  }

  // ---------------------------------------------------------------------
  // strtok as the C library runs it: on a mutable buffer and a saved position.
  // ---------------------------------------------------------------------

  /** strtok's hidden state: the buffer it writes into and where it stopped. */
  datatype Tokenizer = Tokenizer(buf: seq<char>, pos: nat)

  /** One strtok call: the token found (None for NULL) and the state after it. */
  datatype Next = Next(token: Option<seq<char>>, after: Tokenizer)

  /** The first index at or after i that is not a separator. */
  function SkipBars(b: seq<char>, i: nat): (j: nat)
    requires i <= |b|
    ensures i <= j <= |b|
    ensures forall k | i <= k < j :: b[k] == Bar
    ensures j < |b| ==> b[j] != Bar
    decreases |b| - i
  {
    if i == |b| || b[i] != Bar then i else SkipBars(b, i + 1)
  }

  /** The first index at or after i holding a separator or a NUL. */
  function StopAt(b: seq<char>, i: nat): (j: nat)
    requires i <= |b|
    ensures i <= j <= |b|
    ensures forall k | i <= k < j :: b[k] != Bar && b[k] != Nul
    ensures j < |b| ==> b[j] == Bar || b[j] == Nul
    decreases |b| - i
  {
    if i == |b| || b[i] == Bar || b[i] == Nul then i else StopAt(b, i + 1)
  }

  /**
   strtok(s, "|") / strtok(NULL, "|"): skip separators; at the terminator
   answer NULL; otherwise the token runs to the next separator, which is
   overwritten with NUL, and the saved position moves past it.
   */
  function Strtok(t: Tokenizer): (n: Next)
    requires t.pos <= |t.buf|
    ensures |n.after.buf| == |t.buf| && n.after.pos <= |t.buf|
    ensures n.token.Some? ==> t.pos < n.after.pos
    ensures n.after.buf[..t.pos] == t.buf[..t.pos]
    ensures n.token.None? ==> n.after.buf == t.buf
    ensures forall k | 0 <= k < |t.buf| && t.buf[k] == Nul :: n.after.buf[k] == Nul
  {
    var s := SkipBars(t.buf, t.pos);
    if s == |t.buf| || t.buf[s] == Nul then Next(None, Tokenizer(t.buf, s))
    else
      var e := StopAt(t.buf, s);
      if e < |t.buf| && t.buf[e] == Bar then
        Next(Some(t.buf[s..e]), Tokenizer(t.buf[e := Nul], e + 1))
      else
        Next(Some(t.buf[s..e]), Tokenizer(t.buf, e))
  }

  /** The tokens visible from the start s of a run that ends at e, a separator, a NUL or the end. */
  lemma TokensAtRun(b: seq<char>, s: nat, e: nat)
    requires s < e <= |b|
    requires forall k | s <= k < e :: b[k] != Bar && b[k] != Nul
    requires e < |b| ==> b[e] == Bar || b[e] == Nul
    ensures e < |b| && b[e] == Bar ==> Tokens(CView(b[s..])) == [b[s..e]] + Tokens(CView(b[e + 1..]))
    ensures !(e < |b| && b[e] == Bar) ==> Tokens(CView(b[s..])) == [b[s..e]]
  {
    CViewSplit(b, s, e);
    var run := b[s..e];
    var tail := CView(b[e..]);
    assert forall k | 0 <= k < |run| :: run[k] == b[s + k];
    assert Bar !in run;
    if e < |b| && b[e] == Bar {
      assert b[e..][0] == Bar;
      CViewCons(b[e..]);
      assert b[e..][1..] == b[e + 1..];
      assert tail == [Bar] + CView(b[e + 1..]);
      TokensLeadingRun(run, tail);
      TokensAfterBar(CView(b[e + 1..]));
    } else {
      assert tail == [];
      TokensLeadingRun(run, tail);
      assert run + tail == run;
    }
  }

  /**
   Each strtok call hands out the first of the tokens still visible from its
   saved position, and the tokens visible afterwards are the rest.
   */
  lemma StrtokYields(t: Tokenizer)
    requires t.pos <= |t.buf|
    ensures var n := Strtok(t);
            && (n.token.None? ==> Tokens(CView(t.buf[t.pos..])) == [])
            && (n.token.Some? ==>
                  Tokens(CView(t.buf[t.pos..])) == [n.token.value] + Tokens(CView(n.after.buf[n.after.pos..])))
  {
    var b := t.buf;
    var s := SkipBars(b, t.pos);
    if s == |b| || b[s] == Nul {
      TokensSkipBars(b, t.pos, s);
      assert CView(b[s..]) == [];
    } else {
      var e := StopAt(b, s);
      if e < |b| && b[e] == Bar {
        StrtokCut(t, s, e);
      } else {
        StrtokLast(t, s, e);
      }
    }
  }

  /** The strtok call that cuts the buffer at the separator e. */
  lemma StrtokCut(t: Tokenizer, s: nat, e: nat)
    requires t.pos <= |t.buf| && s == SkipBars(t.buf, t.pos) && s < |t.buf| && t.buf[s] != Nul
    requires e == StopAt(t.buf, s) && e < |t.buf| && t.buf[e] == Bar
    ensures var n := Strtok(t);
            n.token == Some(t.buf[s..e]) &&
            Tokens(CView(t.buf[t.pos..])) == [n.token.value] + Tokens(CView(n.after.buf[n.after.pos..]))
  {
    var b := t.buf;
    StrtokFound(t, s, e);
    StrtokCutCase(b, t.pos, s, e);
    var n := Strtok(t);
    assert n.after.buf[n.after.pos..] == b[e + 1..];
    var rest := Tokens(CView(b[e + 1..]));
    assert Tokens(CView(n.after.buf[n.after.pos..])) == rest;
  }

  /** The strtok call whose token runs to a NUL or to the end of the buffer. */
  lemma StrtokLast(t: Tokenizer, s: nat, e: nat)
    requires t.pos <= |t.buf| && s == SkipBars(t.buf, t.pos) && s < |t.buf| && t.buf[s] != Nul
    requires e == StopAt(t.buf, s) && !(e < |t.buf| && t.buf[e] == Bar)
    ensures var n := Strtok(t);
            n.token == Some(t.buf[s..e]) &&
            Tokens(CView(t.buf[t.pos..])) == [n.token.value] + Tokens(CView(n.after.buf[n.after.pos..]))
  {
    StrtokFound(t, s, e);
    StrtokLastCase(t.buf, t.pos, s, e);
  }

  lemma StrtokFound(t: Tokenizer, s: nat, e: nat)
    requires t.pos <= |t.buf| && s == SkipBars(t.buf, t.pos) && s < |t.buf| && t.buf[s] != Nul
    requires e == StopAt(t.buf, s)
    ensures e < |t.buf| && t.buf[e] == Bar ==>
              var n := Strtok(t);
              n.token == Some(t.buf[s..e]) && n.after.pos == e + 1 && n.after.buf[e + 1..] == t.buf[e + 1..]
    ensures !(e < |t.buf| && t.buf[e] == Bar) ==> Strtok(t) == Next(Some(t.buf[s..e]), Tokenizer(t.buf, e))
  {
    if e < |t.buf| && t.buf[e] == Bar {
      assert t.buf[e := Nul][e + 1..] == t.buf[e + 1..];
    }
  }

  /** The tokens seen by a strtok call whose token runs to a NUL or to the end. */
  lemma StrtokLastCase(b: seq<char>, pos: nat, s: nat, e: nat)
    requires pos <= s < e <= |b| && (e < |b| ==> b[e] == Nul)
    requires forall k | pos <= k < s :: b[k] == Bar
    requires forall k | s <= k < e :: b[k] != Bar && b[k] != Nul
    ensures Tokens(CView(b[pos..])) == [b[s..e]]
    ensures Tokens(CView(b[e..])) == []
  {
    TokensSkipBars(b, pos, s);
    TokensAtRun(b, s, e);
    assert CView(b[e..]) == [];
  }

  /** The tokens seen by a strtok call that cuts the buffer at the separator e. */
  lemma StrtokCutCase(b: seq<char>, pos: nat, s: nat, e: nat)
    requires pos <= s < e < |b| && b[e] == Bar
    requires forall k | pos <= k < s :: b[k] == Bar
    requires forall k | s <= k < e :: b[k] != Bar && b[k] != Nul
    ensures Tokens(CView(b[pos..])) == [b[s..e]] + Tokens(CView(b[e + 1..]))
  {
    TokensSkipBars(b, pos, s);
    TokensAtRun(b, s, e);
  }

  /** The outcome of a token-matching loop: whether it matched, and the buffer left behind. */
  datatype Scan = Scan(found: bool, buf: seq<char>)

  /**
   The extension-matching loop: call strtok repeatedly, stopping with a
   match as soon as a token compares equal to word under strcmp, and with
   no match once strtok answers NULL. Starts from a given strtok state.
   */
  function MatchTokens(word: seq<char>, t: Tokenizer): (r: Scan)
    requires t.pos <= |t.buf|
    ensures |r.buf| == |t.buf|
    ensures r.buf[..t.pos] == t.buf[..t.pos]
    decreases |t.buf| - t.pos
  {
    var n := Strtok(t);
    match n.token
    case None => Scan(false, n.after.buf)
    case Some(tok) =>
      if Strcmp(word, tok) == 0 then Scan(true, n.after.buf)
      else
        var r := MatchTokens(word, n.after);
        assert r.buf[..t.pos] == r.buf[..n.after.pos][..t.pos];
        r
  }

  /** The loop succeeds exactly when word is one of the tokens visible from the start state. */
  lemma {:induction false} MatchTokensFinds(word: seq<char>, t: Tokenizer)
    requires t.pos <= |t.buf|
    ensures MatchTokens(word, t).found <==> CView(word) in Tokens(CView(t.buf[t.pos..]))
    decreases |t.buf| - t.pos
  {
    var n := Strtok(t);
    StrtokYields(t);
    if n.token.Some? {
      var tok := n.token.value;
      var ts := Tokens(CView(t.buf[t.pos..]));
      assert tok in ts;
      CViewOfString(tok);
      StrcmpZero(word, tok);
      if Strcmp(word, tok) != 0 {
        MatchTokensFinds(word, n.after);
        assert ts == [tok] + Tokens(CView(n.after.buf[n.after.pos..]));
      }
    }
  }
}

=== FILE: fileitems.dfy ===
/**
 The directory listing of the file browser in src/main.cpp: the entry
 record, the `compareFileItems` order, the `isExecutable` extension test,
 and how one directory's listing is built and sorted.
 */
module FileItems {
  import opened Wrappers
  import opened CString

  /** Capacity of the listing array. */
  const MaxFiles: nat := 500

  /** strncpy keeps at most this many characters of a name (char[79] with a final NUL). */
  const NameCapacity: nat := 78

  /** One listing entry (file_item_t); `filename` is the C string it holds. */
  datatype FileItem = FileItem(isDirectory: bool, isExecutable: bool, size: nat, filename: seq<char>)

  /** The parent-directory entry placed first when the path is not the root. */
  const DotDot: FileItem := FileItem(true, false, 0, "..")

  // ---------------------------------------------------------------------
  // Ordering
  // ---------------------------------------------------------------------

  /** compareFileItems: directories before other entries, then strcmp on the names. */
  function Compare(a: FileItem, b: FileItem): int
  {
    if a.isDirectory && !b.isDirectory then -1
    else if !a.isDirectory && b.isDirectory then 1
    else Strcmp(a.filename, b.filename)
  }

  /**
   compareFileItems is a total preorder that puts every directory before
   every non-directory: it is antisymmetric, transitive, and ties exactly
   the entries that agree on directory-ness and on the name.
   */
  lemma CompareIsTotalPreorder(a: FileItem, b: FileItem, c: FileItem)
    ensures a.isDirectory && !b.isDirectory ==> Compare(a, b) < 0
    ensures Compare(a, b) == -Compare(b, a)
    ensures Compare(a, b) == 0 <==> a.isDirectory == b.isDirectory && CView(a.filename) == CView(b.filename)
    ensures Compare(a, b) <= 0 && Compare(b, c) <= 0 ==> Compare(a, c) <= 0
  {
    StrcmpAntisymmetric(a.filename, b.filename);
    StrcmpZero(a.filename, b.filename);
    if Compare(a, b) <= 0 && Compare(b, c) <= 0 && a.isDirectory == b.isDirectory && b.isDirectory == c.isDirectory {
      StrcmpTransitive(a.filename, b.filename, c.filename);
    }
  }

  /**
   Among entries of the same kind compareFileItems is alphabetical: when the
   names agree on their first k characters, the name that ends there comes
   first, and otherwise the smaller character at k does.
   */
  lemma CompareAlphabetical(a: FileItem, b: FileItem, k: nat)
    requires a.isDirectory == b.isDirectory
    requires k <= |CView(a.filename)| && k <= |CView(b.filename)|
    requires CView(a.filename)[..k] == CView(b.filename)[..k]
    ensures k == |CView(a.filename)| < |CView(b.filename)| ==> Compare(a, b) < 0
    ensures k < |CView(a.filename)| && k < |CView(b.filename)| && CView(a.filename)[k] < CView(b.filename)[k] ==>
              Compare(a, b) < 0
  {
    StrcmpLexicographic(a.filename, b.filename, k);
  }

  /** Every entry is at most every later entry in compareFileItems order. */
  ghost predicate Sorted(s: seq<FileItem>)
  {
    forall i, j | 0 <= i < j < |s| :: Compare(s[i], s[j]) <= 0
  }

  /** Insert x before the first entry it does not follow. */
  function Insert(x: FileItem, s: seq<FileItem>): seq<FileItem>
  {
    if |s| == 0 then [x]
    else if Compare(x, s[0]) <= 0 then [x] + s
    else [s[0]] + Insert(x, s[1..])
  }

  /**
   The qsort call: an insertion sort by compareFileItems. qsort is not
   stable, so only "a sorted permutation" is claimed of it.
   */
  function SortItems(s: seq<FileItem>): seq<FileItem>
  {
    if |s| == 0 then [] else Insert(s[0], SortItems(s[1..]))
  }

  lemma SortedCons(h: FileItem, t: seq<FileItem>)
    requires Sorted(t)
    requires forall j | 0 <= j < |t| :: Compare(h, t[j]) <= 0
    ensures Sorted([h] + t)
  {
    var s := [h] + t;
    forall i, j | 0 <= i < j < |s| ensures Compare(s[i], s[j]) <= 0 {
      if i == 0 {
        assert s[j] == t[j - 1];
      } else {
        assert s[i] == t[i - 1] && s[j] == t[j - 1];
      }
    }
  }

  lemma SortedTail(s: seq<FileItem>)
    requires |s| > 0 && Sorted(s)
    ensures Sorted(s[1..])
  {
    var t := s[1..];
    forall i, j | 0 <= i < j < |t| ensures Compare(t[i], t[j]) <= 0 {
      assert t[i] == s[i + 1] && t[j] == s[j + 1];
    }
  }

  /** An entry at most x and at most every entry of t is at most every entry of a permutation of t + [x]. */
  lemma BoundsPermutation(h: FileItem, x: FileItem, t: seq<FileItem>, r: seq<FileItem>)
    requires Compare(h, x) <= 0
    requires forall j | 0 <= j < |t| :: Compare(h, t[j]) <= 0
    requires multiset(r) == multiset(t) + multiset{x}
    ensures forall j | 0 <= j < |r| :: Compare(h, r[j]) <= 0
  {
    forall j | 0 <= j < |r| ensures Compare(h, r[j]) <= 0 {
      assert r[j] in multiset(r);
      if r[j] != x {
        assert r[j] in multiset(t);
        var k :| 0 <= k < |t| && t[k] == r[j];
      }
    }
  }

  /** Inserting into a sorted list keeps it sorted and adds exactly the one entry. */
  lemma {:induction false} InsertKeepsSorted(x: FileItem, s: seq<FileItem>)
    requires Sorted(s)
    ensures Sorted(Insert(x, s))
    ensures multiset(Insert(x, s)) == multiset(s) + multiset{x}
    decreases |s|
  {
    if |s| > 0 {
      if Compare(x, s[0]) <= 0 {
        InsertAtHead(x, s);
      } else {
        SortedTail(s);
        InsertKeepsSorted(x, s[1..]);
        InsertPastHead(x, s);
      }
    }
  }

  /** An entry at most the head of a sorted list goes in front of it. */
  lemma InsertAtHead(x: FileItem, s: seq<FileItem>)
    requires Sorted(s) && |s| > 0 && Compare(x, s[0]) <= 0
    ensures Sorted(Insert(x, s))
    ensures multiset(Insert(x, s)) == multiset(s) + multiset{x}
  {
    forall j | 0 <= j < |s| ensures Compare(x, s[j]) <= 0 {
      if j > 0 {
        CompareIsTotalPreorder(x, s[0], s[j]);
      }
    }
    SortedCons(x, s);
  }

  /** An entry after the head goes into the tail, and the head stays in front. */
  lemma InsertPastHead(x: FileItem, s: seq<FileItem>)
    requires Sorted(s) && |s| > 0 && Compare(x, s[0]) > 0
    requires Sorted(Insert(x, s[1..]))
    requires multiset(Insert(x, s[1..])) == multiset(s[1..]) + multiset{x}
    ensures Sorted(Insert(x, s))
    ensures multiset(Insert(x, s)) == multiset(s) + multiset{x}
  {
    assert s == [s[0]] + s[1..];
    CompareIsTotalPreorder(x, s[0], x);
    var tail := s[1..];
    var r := Insert(x, tail);
    assert forall j | 0 <= j < |tail| :: Compare(s[0], tail[j]) <= 0 by {
      forall j | 0 <= j < |tail| ensures Compare(s[0], tail[j]) <= 0 {
        assert tail[j] == s[j + 1];
      }
    }
    BoundsPermutation(s[0], x, tail, r);
    SortedCons(s[0], r);
  }

  /** The listing after qsort is sorted and holds exactly the entries it held before. */
  lemma {:induction false} SortItemsSorts(s: seq<FileItem>)
    ensures Sorted(SortItems(s))
    ensures multiset(SortItems(s)) == multiset(s)
    decreases |s|
  {
    if |s| > 0 {
      var rest := SortItems(s[1..]);
      SortItemsSorts(s[1..]);
      InsertKeepsSorted(s[0], rest);
      assert SortItems(s) == Insert(s[0], rest);
      assert s == [s[0]] + s[1..];
      assert multiset(s) == multiset(s[1..]) + multiset{s[0]};
    }
  }

  // ---------------------------------------------------------------------
  // Extension matching
  // ---------------------------------------------------------------------

  /**
   isExecutable with the extension list held as an unchanging token
   sequence: true exactly when the name has a '.' and the text after its
   last '.' is one of the extensions.
   */
  function IsExecutable(pathname: seq<char>, extensions: seq<seq<char>>): (r: bool)
    ensures '.' !in pathname ==> !r
    ensures r <==> exists k | 0 <= k < |pathname| ::
                     pathname[k] == '.' && '.' !in pathname[k + 1..] && pathname[k + 1..] in extensions
  {
    match LastIndexOf(pathname, '.')
    case None => false
    case Some(i) =>
      LastDotIsUnique(pathname, i);
      pathname[i + 1..] in extensions
  }

  lemma LastDotIsUnique(s: seq<char>, i: nat)
    requires i < |s| && s[i] == '.' && '.' !in s[i + 1..]
    ensures forall k | 0 <= k < |s| && s[k] == '.' && '.' !in s[k + 1..] :: k == i
  {
  }

  /**
   isExecutable as written: the extension string itself is handed to strtok,
   which overwrites the separator after each token it returns with NUL.
   Returns the answer and the caller's extension buffer afterwards.
   */
  function IsExecutableInPlace(pathname: seq<char>, extensions: seq<char>): (r: Scan)
    ensures |r.buf| == |extensions|
  {
    match LastIndexOf(pathname, '.')
    case None => Scan(false, extensions)
    case Some(i) => MatchTokens(pathname[i + 1..], Tokenizer(extensions, 0))
  }

  /** On an untouched extension string the in-place test gives the same answer as the token-list test. */
  lemma InPlaceAgrees(pathname: seq<char>, extensions: seq<char>)
    requires Nul !in pathname
    ensures IsExecutableInPlace(pathname, extensions).found == IsExecutable(pathname, Tokens(CView(extensions)))
  {
    match LastIndexOf(pathname, '.')
    case None =>
    case Some(i) =>
      var ext := pathname[i + 1..];
      var t0 := Tokenizer(extensions, 0);
      InPlaceMatchesExtension(pathname, extensions, i);
      ExecutableExtension(pathname, Tokens(CView(extensions)), i);
      NulFreeSuffix(pathname, i + 1);
      CViewOfString(ext);
      MatchTokensFinds(ext, t0);
      assert extensions[0..] == extensions;
  }

  /** With a last '.' at i, the token-list test looks up the text after it. */
  lemma ExecutableExtension(pathname: seq<char>, extensions: seq<seq<char>>, i: nat)
    requires LastIndexOf(pathname, '.') == Some(i)
    ensures IsExecutable(pathname, extensions) == (pathname[i + 1..] in extensions)
  {
  }

  /** With a last '.' at i, the in-place test is the token loop run on the text after it. */
  lemma InPlaceMatchesExtension(pathname: seq<char>, extensions: seq<char>, i: nat)
    requires LastIndexOf(pathname, '.') == Some(i)
    ensures IsExecutableInPlace(pathname, extensions) == MatchTokens(pathname[i + 1..], Tokenizer(extensions, 0))
  {
  }

  /**
   After one in-place test of a name that has a '.', the extension string
   reads as its first token only: strtok has cut it at the first separator.
   */
  lemma InPlaceKeepsFirstToken(pathname: seq<char>, extensions: seq<char>)
    requires '.' in pathname
    requires Tokens(CView(extensions)) != []
    ensures Tokens(CView(IsExecutableInPlace(pathname, extensions).buf)) == Tokens(CView(extensions))[..1]
  {
    var i := LastIndexOf(pathname, '.').value;
    var t0 := Tokenizer(extensions, 0);
    StrtokYields(t0);
    assert extensions[0..] == extensions;
    var s := SkipBars(extensions, 0);
    var e := StopAt(extensions, s);
    var final := MatchTokens(pathname[i + 1..], t0).buf;
    FirstTokenCut(pathname[i + 1..], t0);
    CutBufferTokens(extensions, final, s, e);
  }

  /**
   What the first strtok call and everything after it leave in the buffer:
   the prefix up to the end of the first token is untouched, and after it
   comes a NUL or the end of the buffer.
   */
  lemma FirstTokenCut(word: seq<char>, t: Tokenizer)
    requires t.pos == 0 && Strtok(t).token.Some?
    ensures var s := SkipBars(t.buf, 0);
            var e := StopAt(t.buf, s);
            var f := MatchTokens(word, t).buf;
            && s < e
            && Strtok(t).token.value == t.buf[s..e]
            && f[..e] == t.buf[..e]
            && (e == |f| || f[e] == Nul)
  {
    var n := Strtok(t);
    var s := SkipBars(t.buf, 0);
    var e := StopAt(t.buf, s);
    var f := MatchTokens(word, t).buf;
    if Strcmp(word, n.token.value) != 0 {
      MatchTokensKeepsNul(word, n.after);
      assert f[..n.after.pos] == n.after.buf[..n.after.pos];
    }
    assert f[..n.after.pos] == n.after.buf[..n.after.pos];
    assert f[..e] == f[..n.after.pos][..e];
    assert n.after.buf[..e] == t.buf[..e];
  }

  /** A buffer that starts with separators and one token, then stops, holds exactly that token. */
  lemma CutBufferTokens(b: seq<char>, f: seq<char>, s: nat, e: nat)
    requires s < e <= |b|
    requires forall k | 0 <= k < s :: b[k] == Bar
    requires forall k | s <= k < e :: b[k] != Bar && b[k] != Nul
    requires e <= |f| && f[..e] == b[..e] && (e == |f| || f[e] == Nul)
    ensures Tokens(CView(f)) == [b[s..e]]
  {
    var pre := b[..e];
    assert forall k | 0 <= k < s :: pre[k] == Bar;
    assert forall k | s <= k < e :: pre[k] != Bar && pre[k] != Nul;
    assert Nul !in pre;
    assert f == pre + f[e..];
    CViewTerminated(pre, f[e..]);
    assert CView(f) == pre;
    TokensSkipBars(pre, 0, s);
    TokensAtRun(pre, s, e);
    CViewOfString(pre);
    assert pre[0..] == pre;
    assert pre[s..e] == b[s..e];
  }

  /** Later strtok calls only turn separators into NULs; NULs already present stay. */
  lemma {:induction false} MatchTokensKeepsNul(word: seq<char>, t: Tokenizer)
    requires t.pos <= |t.buf|
    ensures forall k | 0 <= k < |t.buf| && t.buf[k] == Nul :: MatchTokens(word, t).buf[k] == Nul
    decreases |t.buf| - t.pos
  {
    var n := Strtok(t);
    if n.token.Some? && Strcmp(word, n.token.value) != 0 {
      MatchTokensKeepsNul(word, n.after);
    }
  }

  /**
   The consequence for the listing: once the test has run on one name with a '.',
   every later test against the same extension string accepts only the
   first extension.
   */
  lemma InPlaceForgetsLaterExtensions(first: seq<char>, second: seq<char>, extensions: seq<char>)
    requires '.' in first && Nul !in second
    requires Tokens(CView(extensions)) != []
    ensures IsExecutableInPlace(second, IsExecutableInPlace(first, extensions).buf).found
            == IsExecutable(second, Tokens(CView(extensions))[..1])
  {
    InPlaceKeepsFirstToken(first, extensions);
    InPlaceAgrees(second, IsExecutableInPlace(first, extensions).buf);
  }

  /** The text after the last '.' of stem + "." + ext, when ext has no '.' of its own. */
  lemma ExtensionOf(stem: seq<char>, ext: seq<char>)
    requires '.' !in ext
    ensures var name := stem + ['.'] + ext;
            LastIndexOf(name, '.') == Some(|stem|) && name[|stem| + 1..] == ext
  {
    var name := stem + ['.'] + ext;
    assert name[|stem|] == '.';
    assert name[|stem| + 1..] == ext;
    var i := LastIndexOf(name, '.').value;
    LastDotIsUnique(name, i);
  }

  /**
   The divergence in general: with two different extensions e1|e2, testing
   any name that has a '.' first makes a later test of a name ending in
   ".e2" fail, although e2 is a listed extension. (For instance "nes|uf2",
   then "a.txt", then "b.uf2".)
   */
  lemma InPlaceCounterexample(e1: seq<char>, e2: seq<char>, first: seq<char>, stem: seq<char>)
    requires |e1| > 0 && |e2| > 0 && e1 != e2
    requires Bar !in e1 && Bar !in e2 && Nul !in e1 && Nul !in e2 && '.' !in e2
    requires '.' in first && Nul !in stem
    ensures IsExecutable(stem + ['.'] + e2, Tokens(Join([e1, e2])))
    ensures !IsExecutableInPlace(stem + ['.'] + e2, IsExecutableInPlace(first, Join([e1, e2])).buf).found
  {
    var ts := [e1, e2];
    var exts := Join(ts);
    var second := stem + ['.'] + e2;
    assert ts[1..] == [e2];
    assert Join(ts[1..]) == e2;
    assert exts == e1 + [Bar] + e2;
    TokensOfJoin(ts);
    assert Nul !in exts;
    CViewOfString(exts);
    ExtensionOf(stem, e2);
    assert Nul !in second;
    assert ts[..1] == [e1];
    InPlaceForgetsLaterExtensions(first, second, exts);
  }

  // ---------------------------------------------------------------------
  // Building one directory's listing
  // ---------------------------------------------------------------------

  /** What f_readdir reports for one entry: its name, directory attribute and size. */
  datatype FileInfo = FileInfo(fname: seq<char>, isDirectory: bool, size: nat)

  /** One f_readdir call: an entry, or an error result. */
  datatype DirRead = Entry(info: FileInfo) | ReadError

  /** The read loop continues past a successful read with a non-empty name. */
  predicate Continues(r: DirRead)
  {
    r.Entry? && At(r.info.fname, 0) != Nul
  }

  /** How many results precede the first error or end-of-directory marker. */
  function Readable(results: seq<DirRead>): (n: nat)
    ensures n <= |results|
    ensures forall k | 0 <= k < n :: Continues(results[k])
    ensures n < |results| ==> !Continues(results[n])
  {
    if |results| == 0 || !Continues(results[0]) then 0 else 1 + Readable(results[1..])
  }

  /**
   The listing entry made from one directory entry: the name is kept up to
   its first 78 characters, while the executable test looks at the whole
   name, before it is cut.
   */
  function MakeItem(info: FileInfo, extensions: seq<seq<char>>): (item: FileItem)
    ensures item.isDirectory == info.isDirectory && item.size == info.size
    ensures var name := CView(info.fname);
            && |item.filename| == Min(|name|, NameCapacity) && item.filename == name[..|item.filename|]
            && CView(item.filename) == item.filename
    ensures item.isExecutable == IsExecutable(CView(info.fname), extensions)
  {
    CViewOfString(Trunc(CView(info.fname), NameCapacity));
    FileItem(info.isDirectory, IsExecutable(CView(info.fname), extensions), info.size,
             Trunc(CView(info.fname), NameCapacity))
  }

  /** The entries the read loop keeps when there is room for `room` more. */
  function Collect(results: seq<DirRead>, room: nat, extensions: seq<seq<char>>): (items: seq<FileItem>)
    ensures |items| == Min(room, Readable(results))
    ensures forall k | 0 <= k < |items| :: Continues(results[k]) && items[k] == MakeItem(results[k].info, extensions)
    decreases |results|
  {
    if room == 0 || |results| == 0 || !Continues(results[0]) then []
    else [MakeItem(results[0].info, extensions)] + Collect(results[1..], room - 1, extensions)
  }

  /** The ".." entry, present unless the path is the root. */
  function Dots(basepath: seq<char>): seq<FileItem>
  {
    if |basepath| > 0 then [DotDot] else []
  }

  /**
   The listing before sorting: ".." at index 0 when the path is not the root,
   then the directory entries in read order until the first error, the end
   of the directory, or the 500-entry capacity.
   */
  function Listing(basepath: seq<char>, results: seq<DirRead>, extensions: seq<seq<char>>): (items: seq<FileItem>)
    ensures |items| <= MaxFiles
    ensures |items| == Min(MaxFiles, |Dots(basepath)| + Readable(results))
    ensures |basepath| > 0 ==> items[0] == DotDot
  {
    Dots(basepath) + Collect(results, MaxFiles - |Dots(basepath)|, extensions)
  }

  /** After the optional "..", entry k of the listing is made from read result k in read order. */
  lemma ListingEntries(basepath: seq<char>, results: seq<DirRead>, extensions: seq<seq<char>>)
    ensures var items, d := Listing(basepath, results, extensions), |Dots(basepath)|;
            forall k | d <= k < |items| ::
              Continues(results[k - d]) && items[k] == MakeItem(results[k - d].info, extensions)
  {
    var d := Dots(basepath);
    var c := Collect(results, MaxFiles - |d|, extensions);
    var items := Listing(basepath, results, extensions);
    assert items == d + c;
    forall k | |d| <= k < |items|
      ensures Continues(results[k - |d|]) && items[k] == MakeItem(results[k - |d|].info, extensions)
    {
      assert items[k] == c[k - |d|];
    }
  }

  /**
   Opening a directory: None when f_opendir fails (the browser then halts);
   otherwise the listing after qsort, which holds the entries of Listing,
   directories first, never more than 500 of them, ".." among them unless
   the path is the root.
   */
  function OpenDirectory(basepath: seq<char>, dirOpened: bool, results: seq<DirRead>, extensions: seq<seq<char>>)
    : (r: Option<seq<FileItem>>)
    ensures r.None? <==> !dirOpened
    ensures r.Some? ==> Sorted(r.value)
    ensures r.Some? ==> multiset(r.value) == multiset(Listing(basepath, results, extensions))
    ensures r.Some? ==> |r.value| <= MaxFiles
    ensures r.Some? ==> forall i, j | 0 <= i < j < |r.value| :: r.value[j].isDirectory ==> r.value[i].isDirectory
    ensures r.Some? && |basepath| > 0 ==> DotDot in r.value
  {
    if !dirOpened then None
    else
      var l := Listing(basepath, results, extensions);
      SortItemsSorts(l);
      var s := SortItems(l);
      assert |s| == |multiset(s)| == |multiset(l)| == |l|;
      assert |basepath| > 0 ==> l[0] in multiset(l) && DotDot in multiset(s);
      Some(s)
  }
}

=== FILE: mailbox.dfy ===
/**
 The keyboard mailbox of src/main.cpp: a single 32-bit word `input` that the
 PS/2 interrupt handler `handleScancode` overwrites with every nonzero
 scancode. Nothing in the firmware ever clears it.
 */
module Mailbox {

  newtype u32 = x: int | 0 <= x < 0x1_0000_0000

  /** What one interrupt leaves behind: the handler's answer and the mailbox word. */
  datatype Handled = Handled(accepted: bool, input: u32)

  /** handleScancode: a nonzero scancode replaces the mailbox word; zero leaves it. */
  function HandleScancode(input: u32, scancode: u32): Handled
  {
    Handled(true, if scancode != 0 then scancode else input)
  }

  /** The mailbox word after the handler has run once for each scancode, in order. */
  function Deliver(input: u32, scancodes: seq<u32>): u32
    decreases |scancodes|
  {
    if |scancodes| == 0 then input
    else Deliver(HandleScancode(input, scancodes[0]).input, scancodes[1..])
  }

  /**
   The handler always reports the event as accepted, and after any burst of
   interrupts the mailbox holds the most recent nonzero scancode; if every
   scancode was zero it holds what it held before.
   */
  lemma {:induction false} LatestWins(input: u32, scancodes: seq<u32>)
    ensures forall i | 0 <= i < |scancodes| :: HandleScancode(input, scancodes[i]).accepted
    ensures (forall i | 0 <= i < |scancodes| :: scancodes[i] == 0) ==> Deliver(input, scancodes) == input
    ensures forall i | 0 <= i < |scancodes| && scancodes[i] != 0 ::
              (forall j | i < j < |scancodes| :: scancodes[j] == 0) ==> Deliver(input, scancodes) == scancodes[i]
    decreases |scancodes|
  {
    if |scancodes| > 0 {
      var next := HandleScancode(input, scancodes[0]).input;
      LatestWins(next, scancodes[1..]);
      forall i | 0 <= i < |scancodes| && scancodes[i] != 0 && (forall j | i < j < |scancodes| :: scancodes[j] == 0)
        ensures Deliver(input, scancodes) == scancodes[i]
      {
        if i > 0 {
          assert scancodes[1..][i - 1] == scancodes[i];
          assert forall j | i - 1 < j < |scancodes| - 1 :: scancodes[1..][j] == scancodes[j + 1];
        } else {
          assert forall j | 0 <= j < |scancodes| - 1 :: scancodes[1..][j] == scancodes[j + 1];
        }
      }
      if forall i | 0 <= i < |scancodes| :: scancodes[i] == 0 {
        assert scancodes[0] == 0;
        assert forall j | 0 <= j < |scancodes| - 1 :: scancodes[1..][j] == scancodes[j + 1];
      }
    }
  }

  /** Two key events before one read: the reader sees only the second, unless it was zero. */
  lemma TwoEventsOneRead(input: u32, first: u32, second: u32)
    ensures second != 0 ==> Deliver(input, [first, second]) == second
    ensures second == 0 && first != 0 ==> Deliver(input, [first, second]) == first
    ensures second == 0 && first == 0 ==> Deliver(input, [first, second]) == input
  {
    LatestWins(input, [first, second]);
  }
}

=== FILE: navigation.dfy ===
/**
 The interactive part of `filebrowser` in src/main.cpp: the highlighted
 entry (`offset`, `current_item`) over a listing of `total_files` entries
 shown `per_page` at a time, the DOWN/UP/RIGHT/LEFT handlers that move it,
 the path edits made when START is pressed on a directory, and one pass of
 the inner loop that ties them to the pad state and the keyboard mailbox.
 */
module Navigation {
  import opened Wrappers
  import opened CString
  import opened FileItems
  import opened Mailbox

  /** Text rows of the display; the status line is drawn on row 29 (src/main.cpp:138). */
  const TextModeRows: nat := 30

  /** Entries per page: the window minus its frame and the status line. */
  const PerPage: nat := TextModeRows - 3

  /** `offset` is the first entry on the page, `current` the highlighted row of the page. */
  datatype Cursor = Cursor(offset: int, current: int)

  /** The listing index of the highlighted entry. */
  function Index(c: Cursor): int
  {
    c.offset + c.current
  }

  /**
   The cursor is on a page row and on an entry of the listing, or at the top
   of an empty listing.
   */
  predicate Valid(c: Cursor, total: nat, perPage: nat)
  {
    && 0 <= c.current < perPage
    && 0 <= c.offset
    && (Index(c) < total || (c.offset == 0 && c.current == 0))
  }

  // ---------------------------------------------------------------------
  // The four movement handlers
  // ---------------------------------------------------------------------

  /**
   DOWN: moves the highlight one row when there is an entry below it, inside
   the page if the page has a row left, otherwise by scrolling the page.
   */
  function Down(c: Cursor, total: nat, perPage: nat): (r: Cursor)
    ensures r != c <==> Index(c) + 1 < total
    ensures r != c ==> Index(r) == Index(c) + 1
    ensures r != c ==> (r.offset == c.offset <==> c.current + 1 < perPage)
    ensures Valid(c, total, perPage) ==> Valid(r, total, perPage)
  {
    if c.offset + (c.current + 1) < total then
      if c.current + 1 < perPage then Cursor(c.offset, c.current + 1)
      else Cursor(c.offset + 1, c.current)
    else c
  }

  /**
   UP: moves the highlight one row up inside the page, or scrolls the page
   back one entry when the highlight is on its first row; at the very top
   nothing changes.
   */
  function Up(c: Cursor): (r: Cursor)
    ensures r != c <==> (c.current > 0 || c.offset > 0)
    ensures r != c ==> Index(r) == Index(c) - 1
    ensures r.current <= c.current && r.offset <= c.offset
  {
    if c.current > 0 then Cursor(c.offset, c.current - 1)
    else if c.offset > 0 then Cursor(c.offset - 1, c.current)
    else c
  }

  /** UP keeps the cursor valid. */
  lemma UpKeepsValid(c: Cursor, total: nat, perPage: nat)
    ensures Valid(c, total, perPage) ==> Valid(Up(c), total, perPage)
  {
  }

  /** UP after a DOWN that moved goes back to the entry the highlight started on. */
  lemma UpUndoesDown(c: Cursor, total: nat, perPage: nat)
    requires Valid(c, total, perPage)
    requires Down(c, total, perPage) != c
    ensures Index(Up(Down(c, total, perPage))) == Index(c)
    ensures Valid(Up(Down(c, total, perPage)), total, perPage)
  {
    UpKeepsValid(Down(c, total, perPage), total, perPage);
  }

  /**
   RIGHT as written: the page moves forward by `perPage`, and when that puts
   the highlight past the last entry the offset is pulled back so that the
   highlight sits on the last entry. On an empty listing this pulls the
   offset to -1.
   */
  function RightAsWritten(c: Cursor, total: nat, perPage: nat): (r: Cursor)
    ensures r.current == c.current
    ensures Index(r) + 1 <= total
    ensures r.offset <= c.offset + perPage
    ensures r.offset < c.offset + perPage ==> Index(r) + 1 == total
    ensures Valid(c, total, perPage) && total > 0 ==> Valid(r, total, perPage)
  {
    var offset := c.offset + perPage;
    if offset + (c.current + 1) > total then Cursor(total - (c.current + 1), c.current)
    else Cursor(offset, c.current)
  }

  /** An empty listing (a root directory with no entries) and one RIGHT press. */
  lemma RightAsWrittenLeavesListing()
    ensures Valid(Cursor(0, 0), 0, PerPage)
    ensures RightAsWritten(Cursor(0, 0), 0, PerPage) == Cursor(-1, 0)
    ensures !Valid(RightAsWritten(Cursor(0, 0), 0, PerPage), 0, PerPage)
    ensures Index(RightAsWritten(Cursor(0, 0), 0, PerPage)) == -1
  {
  }

  /**
   RIGHT as intended: forward one page, clamped so the highlight stays on
   the last entry, and never before the start of the listing.
   */
  function Right(c: Cursor, total: nat, perPage: nat): (r: Cursor)
    ensures r.current == c.current
    ensures 0 <= r.offset <= Max(0, c.offset + perPage)
    ensures Valid(c, total, perPage) ==> Valid(r, total, perPage)
    ensures Valid(c, total, perPage) && r.offset < c.offset + perPage ==>
              (total > 0 ==> Index(r) + 1 == total) && (total == 0 ==> r == Cursor(0, 0))
  {
    Cursor(Max(0, Min(c.offset + perPage, total - (c.current + 1))), c.current)
  }

  /** On a non-empty listing the intended RIGHT is exactly the one written. */
  lemma RightAgreesOnNonEmpty(c: Cursor, total: nat, perPage: nat)
    requires Valid(c, total, perPage) && total > 0
    ensures Right(c, total, perPage) == RightAsWritten(c, total, perPage)
  {
  }

  /**
   LEFT: back one page keeping the highlighted row while the offset is more
   than a page; otherwise straight to the first entry.
   */
  function Left(c: Cursor, perPage: nat): (r: Cursor)
    ensures r.offset == Max(0, c.offset - perPage)
    ensures r.current == c.current || r == Cursor(0, 0)
    ensures 0 <= c.offset && 0 <= c.current ==> 0 <= Index(r) <= Index(c)
    ensures 0 <= c.current ==> (Index(r) == 0 <==> c.offset <= perPage)
  {
    if c.offset > perPage then Cursor(c.offset - perPage, c.current)
    else Cursor(0, 0)
  }

  /** LEFT keeps the cursor valid. */
  lemma LeftKeepsValid(c: Cursor, total: nat, perPage: nat)
    ensures Valid(c, total, perPage) ==> Valid(Left(c, perPage), total, perPage)
  {
  }

  /**
   LEFT after a RIGHT that moved a whole page returns to the same cursor,
   except from the first page, where it returns to the first entry.
   */
  lemma LeftUndoesRight(c: Cursor, total: nat, perPage: nat)
    requires Valid(c, total, perPage)
    requires Index(c) + perPage < total
    ensures c.offset > 0 ==> Left(Right(c, total, perPage), perPage) == c
    ensures c.offset == 0 ==> Left(Right(c, total, perPage), perPage) == Cursor(0, 0)
  {
    assert c.offset + perPage <= total - (c.current + 1);
    assert Right(c, total, perPage) == Cursor(c.offset + perPage, c.current);
  }

  // ---------------------------------------------------------------------
  // Rows drawn for one page
  // ---------------------------------------------------------------------

  /** The table indices the drawing loop reads: one per page row, from `offset`. */
  function PageRowsAsWritten(c: Cursor, perPage: nat): (rows: seq<int>)
    ensures |rows| == perPage
    ensures forall x :: x in rows <==> c.offset <= x < c.offset + perPage
    ensures 0 <= c.current < perPage ==> Index(c) in rows
  {
    var rows := seq(perPage, i => c.offset + i);
    ConsecutiveRows(rows, c.offset);
    rows
  }

  /** Consecutive indices from `first` are exactly the integers of [first, first + |rows|). */
  lemma ConsecutiveRows(rows: seq<int>, first: int)
    requires forall i | 0 <= i < |rows| :: rows[i] == first + i
    ensures forall x :: x in rows <==> first <= x < first + |rows|
  {
    forall x | first <= x < first + |rows|
      ensures x in rows
    {
      assert rows[x - first] == x;
    }
  }

  /** RIGHT, as written, pressed n times. */
  function RightTimes(c: Cursor, total: nat, perPage: nat, n: nat): Cursor
    decreases n
  {
    if n == 0 then c else RightTimes(RightAsWritten(c, total, perPage), total, perPage, n - 1)
  }

  /**
   On a full table of 500 entries, eighteen RIGHT presses reach offset 486
   and a nineteenth puts the last entry at the top of the page; the drawing
   loop then reads 26 entries past the end of the 500-entry table.
   */
  lemma PageRowsOverrunTable()
    ensures var c := RightAsWritten(RightTimes(Cursor(0, 0), MaxFiles, PerPage, 18), MaxFiles, PerPage);
            && c == Cursor(MaxFiles - 1, 0)
            && Valid(c, MaxFiles, PerPage)
            && PageRowsAsWritten(c, PerPage)[PerPage - 1] == MaxFiles + PerPage - 2
  {
    RightTimesWholePages(0, 18);
  }

  /** On the full table, RIGHT presses that stay short of the last entry each move one whole page. */
  lemma {:induction false} RightTimesWholePages(offset: nat, n: nat)
    requires offset + n * PerPage < MaxFiles
    ensures RightTimes(Cursor(offset, 0), MaxFiles, PerPage, n) == Cursor(offset + n * PerPage, 0)
    decreases n
  {
    if n > 0 {
      assert n * PerPage == (n - 1) * PerPage + PerPage;
      assert RightAsWritten(Cursor(offset, 0), MaxFiles, PerPage) == Cursor(offset + PerPage, 0);
      RightTimesWholePages(offset + PerPage, n - 1);
    }
  }

  /**
   The page rows that lie inside the listing: from `offset`, at most
   `perPage` of them, stopping at the last entry.
   */
  function PageRows(c: Cursor, total: nat, perPage: nat): (rows: seq<int>)
    requires 0 <= c.offset
    ensures |rows| <= perPage
    ensures forall i | 0 <= i < |rows| :: rows[i] == c.offset + i && 0 <= rows[i] < total
    ensures |rows| < perPage ==> c.offset + |rows| >= total
    ensures rows <= PageRowsAsWritten(c, perPage)
  {
    var n := Max(0, Min(perPage, total - c.offset));
    seq(n, i => c.offset + i)
  }

  /** Every row the intended drawing loop reads lies inside the 500-entry table. */
  lemma PageRowsInTable(c: Cursor, total: nat, perPage: nat)
    requires Valid(c, total, perPage) && total <= MaxFiles
    ensures forall i | 0 <= i < |PageRows(c, total, perPage)| :: 0 <= PageRows(c, total, perPage)[i] < MaxFiles
    ensures total > 0 ==> Index(c) in PageRows(c, total, perPage)
  {
    var rows := PageRows(c, total, perPage);
    assert forall i | 0 <= i < |rows| :: rows[i] < total;
    if total > 0 {
      assert c.current < total - c.offset;
      assert |rows| == Min(perPage, total - c.offset);
      assert rows[c.current] == Index(c);
    }
  }

  // ---------------------------------------------------------------------
  // Path edits
  // ---------------------------------------------------------------------

  const Backslash: char := '\\'

  /**
   Entering directory `name` extends the path by one component: the old path
   is kept in front, and when the name has no backslash of its own, the last
   backslash of the new path is the one right after the old path and the
   name is everything that follows it.
   */
  function Enter(basepath: seq<char>, name: seq<char>): (r: seq<char>)
    ensures |r| == |basepath| + 1 + |name|
    ensures r[..|basepath|] == basepath
    ensures Backslash !in name ==> LastIndexOf(r, Backslash) == Some(|basepath|) && r[|basepath| + 1..] == name
  {
    var r := basepath + [Backslash] + name;
    assert r[|basepath|] == Backslash && r[|basepath| + 1..] == name;
    r
  }

  /** `..` cuts the path at its last backslash; a path without one is left as it is. */
  function Parent(basepath: seq<char>): (r: seq<char>)
    ensures r <= basepath
    ensures Backslash !in basepath ==> r == basepath
    ensures Backslash in basepath ==> |r| < |basepath| && basepath[|r|] == Backslash && Backslash !in basepath[|r| + 1..]
  {
    match LastIndexOf(basepath, Backslash)
    case None => basepath
    case Some(i) => basepath[..i]
  }

  /** Entering a directory whose name has no backslash and then taking `..` restores the path. */
  lemma {:induction false} ParentOfEnter(basepath: seq<char>, name: seq<char>)
    requires Backslash !in name
    ensures Parent(Enter(basepath, name)) == basepath
  {
    var p := Enter(basepath, name);
    assert p[|basepath|] == Backslash;
  }

  // ---------------------------------------------------------------------
  // One pass of the browser loop
  // ---------------------------------------------------------------------

  /** The gamepad buttons the browser reads from `nespad_state`. */
  datatype Pad = Pad(a: bool, b: bool, start: bool, up: bool, down: bool, left: bool, right: bool)

  /** What one pass of the loop sees: the pad state and the keyboard mailbox word. */
  datatype Controls = Controls(pad: Pad, input: u32)

  const ScanEscape: u32 := 0x01
  const ScanEnter: u32 := 0x1C
  const ScanF10: u32 := 0x44
  const ScanUp: u32 := 0x48
  const ScanLeft: u32 := 0x4B
  const ScanRight: u32 := 0x4D
  const ScanRightAlt: u32 := 0x7A
  const ScanDown: u32 := 0x50

  predicate EscapePressed(k: Controls) { k.pad.b || k.input == ScanEscape }
  predicate DownPressed(k: Controls) { k.pad.down || k.input == ScanDown }
  predicate UpPressed(k: Controls) { k.pad.up || k.input == ScanUp }
  predicate RightPressed(k: Controls) { k.pad.right || k.input == ScanRight || k.input == ScanRightAlt }
  predicate LeftPressed(k: Controls) { k.pad.left || k.input == ScanLeft }
  predicate StartPressed(k: Controls) { k.pad.start || k.input == ScanEnter }

  /** DOWN and UP, the first two handlers the loop tests. */
  function DownUp(c: Cursor, total: nat, perPage: nat, k: Controls): (r: Cursor)
    ensures Valid(c, total, perPage) ==> Valid(r, total, perPage)
    ensures !DownPressed(k) && !UpPressed(k) ==> r == c
  {
    var c1 := if DownPressed(k) then Down(c, total, perPage) else c;
    UpKeepsValid(c1, total, perPage);
    if UpPressed(k) then Up(c1) else c1
  }

  /**
   The four movement handlers in the order the loop tests them; several can
   apply in the same pass. RIGHT is the intended one (see MoveAsWritten).
   */
  function Move(c: Cursor, total: nat, perPage: nat, k: Controls): (r: Cursor)
    ensures Valid(c, total, perPage) ==> Valid(r, total, perPage)
    ensures !DownPressed(k) && !UpPressed(k) && !RightPressed(k) && !LeftPressed(k) ==> r == c
  {
    var c2 := DownUp(c, total, perPage, k);
    var c3 := if RightPressed(k) then Right(c2, total, perPage) else c2;
    LeftKeepsValid(c3, total, perPage);
    if LeftPressed(k) then Left(c3, perPage) else c3
  }

  /**
   The four handlers as written, with the RIGHT that can leave an empty
   listing; MoveAsWrittenAgrees relates it to Move.
   */
  function MoveAsWritten(c: Cursor, total: nat, perPage: nat, k: Controls): (r: Cursor)
    ensures !DownPressed(k) && !UpPressed(k) && !RightPressed(k) && !LeftPressed(k) ==> r == c
  {
    var c2 := DownUp(c, total, perPage, k);
    var c3 := if RightPressed(k) then RightAsWritten(c2, total, perPage) else c2;
    if LeftPressed(k) then Left(c3, perPage) else c3
  }

  /** On a non-empty listing the handlers as written move a valid cursor exactly as the intended ones. */
  lemma MoveAsWrittenAgrees(c: Cursor, total: nat, perPage: nat, k: Controls)
    requires Valid(c, total, perPage) && total > 0
    ensures MoveAsWritten(c, total, perPage, k) == Move(c, total, perPage, k)
    ensures Valid(MoveAsWritten(c, total, perPage, k), total, perPage)
  {
    RightAgreesOnNonEmpty(DownUp(c, total, perPage, k), total, perPage);
  }

  /**
   On an empty listing (a root directory with no entries) RIGHT without LEFT
   in the same pass leaves the cursor on index -1, before the start of the
   table, where the drawing loop and START then read.
   */
  lemma MoveAsWrittenLeavesTable(c: Cursor, k: Controls)
    requires Valid(c, 0, PerPage)
    requires RightPressed(k) && !LeftPressed(k)
    ensures Index(MoveAsWritten(c, 0, PerPage, k)) == -1
    ensures !Valid(MoveAsWritten(c, 0, PerPage, k), 0, PerPage)
  {
    assert c == Cursor(0, 0);
    var c1 := if DownPressed(k) then Down(c, 0, PerPage) else c;
    assert c1 == c;
    assert DownUp(c, 0, PerPage, k) == c;
    RightAsWrittenLeavesListing();
    assert MoveAsWritten(c, 0, PerPage, k) == RightAsWritten(c, 0, PerPage);
  }

  /** The blank entry `memset` leaves in the table past the listing. */
  const Blank: FileItem := FileItem(false, false, 0, [])

  /**
   The entry the 500-entry table holds at `i`: the listing's entry, or a
   blank one past the listing, which is neither a directory nor executable.
   */
  function ItemAt(items: seq<FileItem>, i: int): (item: FileItem)
    requires 0 <= i < MaxFiles
    ensures i < |items| ==> item == items[i]
    ensures item.isDirectory || item.isExecutable ==> i < |items|
  {
    if i < |items| then items[i] else Blank
  }

  /** The browser between two passes of its inner loop. */
  datatype Browser = Browser(basepath: seq<char>, items: seq<FileItem>, cursor: Cursor, debounce: bool)

  /** What every pass keeps: a listing that fits the table and a valid cursor over it. */
  predicate Ready(b: Browser)
  {
    |b.items| <= MaxFiles && Valid(b.cursor, |b.items|, PerPage)
  }

  /**
   The browser on a fresh listing of `basepath`: the table is rebuilt, the
   cursor set to the first entry, and `debounce` carried in (true on entry,
   false after a directory change). None when the directory cannot be
   opened, where the firmware halts.
   */
  function OpenBrowser(basepath: seq<char>, debounce: bool, dirOpened: bool, results: seq<DirRead>,
                       extensions: seq<seq<char>>): (r: Option<Browser>)
    ensures r.None? <==> !dirOpened
    ensures r.Some? ==> Ready(r.value) && Index(r.value.cursor) == 0
    ensures r.Some? ==> r.value.basepath == basepath && r.value.debounce == debounce
    ensures r.Some? ==> multiset(r.value.items) == multiset(Listing(basepath, results, extensions))
    ensures r.Some? ==> Sorted(r.value.items)
    ensures r.Some? && |basepath| > 0 ==> DotDot in r.value.items
  {
    match OpenDirectory(basepath, dirOpened, results, extensions)
    case None => None
    case Some(items) => Some(Browser(basepath, items, Cursor(0, 0), debounce))
  }

  /**
   How a pass ends: ESC leaves the browser, START on a directory reopens the
   browser on a new path (with OpenBrowser and `debounce` false), and
   anything else stays in the loop. START on an executable formats the
   entry's full path, recorded in `Launch`, and then leaves the browser
   without handing that path to anyone, so to the caller `Launch` and `Quit`
   are the same return.
   */
  datatype Outcome = Quit | Stay(next: Browser) | Reopen(basepath: seq<char>) | Launch(path: seq<char>)

  /**
   The path an entry is reached by: the base path, a backslash, and the
   entry's name; taking `..` from it gives the base path back.
   */
  function PathOf(basepath: seq<char>, item: FileItem): (path: seq<char>)
    ensures |path| > |basepath| && path[..|basepath|] == basepath
    ensures Backslash !in CView(item.filename) ==> Parent(path) == basepath
  {
    Enter(basepath, CView(item.filename))
  }

  /**
   One pass of the inner loop of `filebrowser`, after its 100 ms sleep.
   F10 (the USB drive mode) changes no state of the browser and is not modelled.
   */
  function Step(b: Browser, k: Controls): (o: Outcome)
    requires Ready(b)
    ensures o.Quit? <==> EscapePressed(k)
    ensures o.Stay? ==> o.next.basepath == b.basepath && o.next.items == b.items && Ready(o.next)
    ensures o.Stay? ==> (o.next.debounce <==> b.debounce || !StartPressed(k))
    ensures o.Stay? ==> o.next.cursor == Move(b.cursor, |b.items|, PerPage, k)
    ensures var item := ItemAt(b.items, Index(Move(b.cursor, |b.items|, PerPage, k)));
            && (o.Reopen? <==> !EscapePressed(k) && b.debounce && StartPressed(k) && item.isDirectory)
            && (o.Launch? <==> !EscapePressed(k) && b.debounce && StartPressed(k) && !item.isDirectory && item.isExecutable)
            && (o.Reopen? && CView(item.filename) == ".." ==> o.basepath == Parent(b.basepath))
            && (o.Reopen? && CView(item.filename) != ".." ==> o.basepath == PathOf(b.basepath, item))
            && (o.Launch? ==> o.path == PathOf(b.basepath, item))
  {
    var debounce := b.debounce || (!k.pad.start && k.input != ScanEnter);
    var c := Move(b.cursor, |b.items|, PerPage, k);
    assert Valid(c, |b.items|, PerPage);
    if EscapePressed(k) then Quit
    else
      var item := ItemAt(b.items, Index(c));
      if debounce && StartPressed(k) && item.isDirectory then
        StrcmpZero(item.filename, "..");
        CViewOfString("..");
        Reopen(if Strcmp(item.filename, "..") == 0 then Parent(b.basepath) else PathOf(b.basepath, item))
      else if debounce && StartPressed(k) && item.isExecutable then
        Launch(PathOf(b.basepath, item))
      else
        Stay(Browser(b.basepath, b.items, c, debounce))
  }

  /**
   On a non-empty listing the entry START acts on is one of the listing's
   entries, never a blank slot of the table.
   */
  lemma StartReadsListing(b: Browser, k: Controls)
    requires Ready(b) && |b.items| > 0
    ensures 0 <= Index(Move(b.cursor, |b.items|, PerPage, k)) < |b.items|
    ensures ItemAt(b.items, Index(Move(b.cursor, |b.items|, PerPage, k))) in b.items
  {
  }

  /**
   The mailbox is never cleared, so a key stays "pressed" on every later
   pass until the next nonzero scancode arrives. START is acted on only when the previous pass had re-armed
   `debounce`, which a held START or ENTER prevents.
   */
  lemma HeldStartIsIgnored(b: Browser, k: Controls)
    requires Ready(b) && !b.debounce && StartPressed(k)
    ensures !Step(b, k).Reopen? && !Step(b, k).Launch?
    ensures Step(b, k).Stay? ==> !Step(b, k).next.debounce
  {
  }

  /** A pass with neither ESC nor START stays in the loop and re-arms `debounce`. */
  lemma ReleaseRearms(b: Browser, k: Controls)
    requires Ready(b) && !EscapePressed(k) && !StartPressed(k)
    ensures Step(b, k).Stay? && Step(b, k).next.debounce
  {
  }

  /**
   After a directory change the ENTER that caused it is still in the
   mailbox: on the reopened browser it is ignored, and it stays ignored on
   every pass until a pass without START or ENTER.
   */
  lemma EnterIgnoredAfterReopen(b: Browser, k: Controls, dirOpened: bool, results: seq<DirRead>,
                                 extensions: seq<seq<char>>, k2: Controls)
    requires Ready(b) && Step(b, k).Reopen?
    requires dirOpened && StartPressed(k2)
    ensures var nb := OpenBrowser(Step(b, k).basepath, false, dirOpened, results, extensions).value;
            && !Step(nb, k2).Reopen? && !Step(nb, k2).Launch?
            && (Step(nb, k2).Stay? ==> !Step(nb, k2).next.debounce)
  {
    var nb := OpenBrowser(Step(b, k).basepath, false, dirOpened, results, extensions).value;
    HeldStartIsIgnored(nb, k2);
  }

  /** START on the `..` entry of an armed browser reopens it on the parent path. */
  lemma LeaveByDotDot(b: Browser, k: Controls)
    requires Ready(b) && b.debounce && StartPressed(k) && !EscapePressed(k)
    requires ItemAt(b.items, Index(Move(b.cursor, |b.items|, PerPage, k))) == DotDot
    ensures Step(b, k) == Reopen(Parent(b.basepath))
  {
    CViewOfString("..");
  }

  /** START on an ordinary directory of an armed browser reopens it on the directory's path. */
  lemma EnterChild(b: Browser, k: Controls)
    requires Ready(b) && b.debounce && StartPressed(k) && !EscapePressed(k)
    requires var item := ItemAt(b.items, Index(Move(b.cursor, |b.items|, PerPage, k)));
             item.isDirectory && CView(item.filename) != ".."
    ensures Step(b, k) == Reopen(PathOf(b.basepath, ItemAt(b.items, Index(Move(b.cursor, |b.items|, PerPage, k)))))
  {
  }

  /**
   START on an ordinary directory and, once the browser on it has been
   re-armed, START on its `..` entry brings the browser back to the
   directory it started in. The reopened listing has that `..` entry.
   */
  lemma EnterThenLeave(b: Browser, k: Controls, item: FileItem, results: seq<DirRead>,
                        extensions: seq<seq<char>>, inner: Browser, later: Browser, k2: Controls)
    requires Ready(b) && b.debounce && StartPressed(k) && !EscapePressed(k)
    requires item == ItemAt(b.items, Index(Move(b.cursor, |b.items|, PerPage, k)))
    requires item.isDirectory && CView(item.filename) != ".." && Backslash !in CView(item.filename)
    requires OpenBrowser(PathOf(b.basepath, item), false, true, results, extensions) == Some(inner)
    requires later.basepath == inner.basepath && later.items == inner.items && Ready(later)
    requires later.debounce && StartPressed(k2) && !EscapePressed(k2)
    requires ItemAt(later.items, Index(Move(later.cursor, |later.items|, PerPage, k2))) == DotDot
    ensures Step(b, k) == Reopen(inner.basepath)
    ensures DotDot in inner.items
    ensures Step(later, k2) == Reopen(b.basepath)
  {
    EnterChild(b, k);
    LeaveByDotDot(later, k2);
  }
}

=== FILE: prefstore.dfy ===
/**
 The flat-file preference store of src/hid_server/hci_transport_esp32.cpp
 (the build without the ESP32 NVS library): the file "pico_8_bit.nvs" is a
 run of records, each a 256-byte key slot followed by a 256-byte value
 slot. `sys_set_pref` overwrites the value of the first record whose key
 matches or appends a record; `sys_get_pref` returns the value of the first
 record whose key matches.

 The file is modelled as a sequence of records; `Flatten` gives its bytes.
 The file system is an `Io` value: whether `f_open` succeeds, and which
 `f_read` call of the operation (counting from 0) is the first to fail.
 */
module PrefStore {
  import opened Wrappers
  import opened CString

  const KeyLen: nat := 256
  const ValLen: nat := 256

  /** One stored preference: its key slot and its value slot, as read from the file. */
  datatype Record = Record(key: seq<char>, value: seq<char>)

  /** Every record has full-size slots. */
  predicate WellFormed(file: seq<Record>)
  {
    forall j | 0 <= j < |file| :: |file[j].key| == KeyLen && |file[j].value| == ValLen
  }

  /** The 256 bytes written for a key or a value: strncpy into a 256-byte buffer. */
  function Slot(s: seq<char>): (r: seq<char>)
    ensures |r| == KeyLen && |r| == ValLen
    ensures CView(r) == Trunc(CView(s), KeyLen)
  {
    Strncpy(s, KeyLen)
  }

  // ---------------------------------------------------------------------
  // Byte layout
  // ---------------------------------------------------------------------

  /** The bytes of the file: each record's key slot, then its value slot. */
  function Flatten(file: seq<Record>): seq<char>
    decreases |file|
  {
    if |file| == 0 then [] else file[0].key + file[0].value + Flatten(file[1..])
  }

  /** Reading the file back as consecutive 256-byte key and value slots. */
  function Parse(bytes: seq<char>): seq<Record>
    decreases |bytes|
  {
    if |bytes| < KeyLen + ValLen then []
    else [Record(bytes[..KeyLen], bytes[KeyLen..KeyLen + ValLen])] + Parse(bytes[KeyLen + ValLen..])
  }

  /** A well-formed file is 512 bytes per record, and reading its bytes back gives the records. */
  lemma {:induction false} FlattenParse(file: seq<Record>)
    requires WellFormed(file)
    ensures |Flatten(file)| == (KeyLen + ValLen) * |file|
    ensures Parse(Flatten(file)) == file
    decreases |file|
  {
    if |file| > 0 {
      var rest := file[1..];
      assert WellFormed(rest) by {
        forall j | 0 <= j < |rest| ensures |rest[j].key| == KeyLen && |rest[j].value| == ValLen {
          assert rest[j] == file[j + 1];
        }
      }
      FlattenParse(rest);
      var b := Flatten(file);
      assert b == file[0].key + file[0].value + Flatten(rest);
      assert b[..KeyLen] == file[0].key;
      assert b[KeyLen..KeyLen + ValLen] == file[0].value;
      assert b[KeyLen + ValLen..] == Flatten(rest);
      assert file == [file[0]] + rest;
    }
  }

  lemma {:induction false} FlattenConcat(a: seq<Record>, b: seq<Record>)
    ensures Flatten(a + b) == Flatten(a) + Flatten(b)
    decreases |a|
  {
    if |a| == 0 {
      assert a + b == b;
    } else {
      assert (a + b)[0] == a[0];
      assert (a + b)[1..] == a[1..] + b;
      FlattenConcat(a[1..], b);
    }
  }

  // ---------------------------------------------------------------------
  // The file system
  // ---------------------------------------------------------------------

  /** `f_open` succeeds or not; `failingRead` is the first `f_read` call that fails, if any. */
  datatype Io = Io(opens: bool, failingRead: Option<nat>)

  /** Every `f_read` call numbered below k succeeds. */
  predicate ReadsSucceedBefore(io: Io, k: nat)
  {
    io.failingRead.None? || io.failingRead.value >= k
  }

  /** The key matches a key slot when `strncmp` over n characters reports equality. */
  predicate Matches(key: seq<char>, slot: seq<char>, n: nat)
  {
    Strncmp(key, slot, n) == 0
  }

  /** The first record, from index `from` on, whose key slot matches. */
  function FirstMatchFrom(file: seq<Record>, key: seq<char>, n: nat, from: nat): (r: Option<nat>)
    requires from <= |file|
    ensures r.Some? ==> from <= r.value < |file| && Matches(key, file[r.value].key, n)
    ensures r.Some? ==> forall j | from <= j < r.value :: !Matches(key, file[j].key, n)
    ensures r.None? ==> forall j | from <= j < |file| :: !Matches(key, file[j].key, n)
    decreases |file| - from
  {
    if from == |file| then None
    else if Matches(key, file[from].key, n) then Some(from)
    else FirstMatchFrom(file, key, n, from + 1)
  }

  function FirstMatch(file: seq<Record>, key: seq<char>, n: nat): (r: Option<nat>)
    ensures r.Some? ==> r.value < |file| && Matches(key, file[r.value].key, n)
    ensures r.Some? ==> forall j | 0 <= j < r.value :: !Matches(key, file[j].key, n)
    ensures r.None? ==> forall j | 0 <= j < |file| :: !Matches(key, file[j].key, n)
  {
    FirstMatchFrom(file, key, n, 0)
  }

  // ---------------------------------------------------------------------
  // sys_set_pref
  // ---------------------------------------------------------------------

  datatype SetStatus = OpenFailed | ReadFailed | Overwritten(index: nat) | Appended

  /** What `sys_set_pref` reports to itself, and the file it leaves. */
  datatype Stored = Stored(status: SetStatus, file: seq<Record>)

  /**
   sys_set_pref(key, value). Scanning record j reads its key slot (read
   2j) and, when the key does not match, its value slot (read 2j + 1). A
   match at record i rewrites that record's value slot; reaching the end
   appends a record; a failed open or read writes nothing.
   */
  function SetPref(file: seq<Record>, key: seq<char>, value: seq<char>, io: Io): (s: Stored)
    requires WellFormed(file)
    ensures WellFormed(s.file)
    ensures s.status.OpenFailed? <==> !io.opens
    ensures s.status.OpenFailed? || s.status.ReadFailed? ==> s.file == file
    ensures io.opens && io.failingRead.None? ==> s.status.Overwritten? || s.status.Appended?
    ensures s.status.Overwritten? ==> ReadsSucceedBefore(io, 2 * s.status.index + 1)
    ensures s.status.Appended? ==> ReadsSucceedBefore(io, 2 * |file|)
    ensures var m := FirstMatch(file, key, KeyLen);
            io.opens && ReadsSucceedBefore(io, if m.Some? then 2 * m.value + 1 else 2 * |file|) ==>
              s.status.Overwritten? || s.status.Appended?
    ensures s.status.Overwritten? ==>
              var i := s.status.index;
              && i < |file| && |s.file| == |file|
              && Matches(key, file[i].key, KeyLen)
              && (forall j | 0 <= j < i :: !Matches(key, file[j].key, KeyLen))
              && s.file[i].key == file[i].key && s.file[i].value == Slot(value)
              && (forall j | 0 <= j < |file| && j != i :: s.file[j] == file[j])
    ensures s.status.Appended? ==>
              && (forall j | 0 <= j < |file| :: !Matches(key, file[j].key, KeyLen))
              && |s.file| == |file| + 1 && s.file[..|file|] == file
              && s.file[|file|] == Record(Slot(key), Slot(value))
  {
    if !io.opens then Stored(OpenFailed, file)
    else match FirstMatch(file, key, KeyLen)
      case Some(i) =>
        if ReadsSucceedBefore(io, 2 * i + 1) then Stored(Overwritten(i), file[i := Record(file[i].key, Slot(value))])
        else Stored(ReadFailed, file)
      case None =>
        if ReadsSucceedBefore(io, 2 * |file|) then Stored(Appended, file + [Record(Slot(key), Slot(value))])
        else Stored(ReadFailed, file)
  }

  /** The outcome of one `f_read` call of the operation, numbered from 0. */
  predicate ReadOk(io: Io, call: nat)
  {
    io.failingRead != Some(call)
  }

  /**
   The loop of sys_set_pref as written: while the file position is before
   the end, read a key slot, compare, read a value slot.
   */
  method SetPrefLoop(file: seq<Record>, key: seq<char>, value: seq<char>, io: Io) returns (s: Stored)
    requires WellFormed(file)
    ensures s == SetPref(file, key, value, io)
  {
    if !io.opens {
      return Stored(OpenFailed, file);
    }
    var j := 0;
    while j < |file|
      invariant 0 <= j <= |file|
      invariant FirstMatch(file, key, KeyLen) == FirstMatchFrom(file, key, KeyLen, j)
      invariant ReadsSucceedBefore(io, 2 * j)
    {
      if !ReadOk(io, 2 * j) {
        return Stored(ReadFailed, file);
      }
      if Strncmp(key, file[j].key, ValLen) == 0 {
        assert FirstMatch(file, key, KeyLen) == Some(j);
        return Stored(Overwritten(j), file[j := Record(file[j].key, Slot(value))]);
      }
      if !ReadOk(io, 2 * j + 1) {
        return Stored(ReadFailed, file);
      }
      j := j + 1;
    }
    return Stored(Appended, file + [Record(Slot(key), Slot(value))]);
  }

  /** A successful set changes the file size by nothing (overwrite) or by one record of 512 bytes (append). */
  lemma SetPrefSize(file: seq<Record>, key: seq<char>, value: seq<char>, io: Io)
    requires WellFormed(file)
    ensures var s := SetPref(file, key, value, io);
            && (s.status.Appended? ==> |Flatten(s.file)| == |Flatten(file)| + KeyLen + ValLen)
            && (!s.status.Appended? ==> |Flatten(s.file)| == |Flatten(file)|)
  {
    var s := SetPref(file, key, value, io);
    FlattenParse(file);
    FlattenParse(s.file);
  }

  /**
   At the byte level an overwrite of record i keeps the first 512i + 256
   bytes (the records before it and its key slot) and everything after its
   value slot, and puts the new value slot in between.
   */
  lemma SetPrefOverwriteBytes(file: seq<Record>, key: seq<char>, value: seq<char>, io: Io, s: Stored)
    requires WellFormed(file) && s == SetPref(file, key, value, io) && s.status.Overwritten?
    ensures var i := s.status.index;
            && |Flatten(file[..i]) + file[i].key| == (KeyLen + ValLen) * i + KeyLen
            && Flatten(file) == Flatten(file[..i]) + file[i].key + file[i].value + Flatten(file[i + 1..])
            && Flatten(s.file) == Flatten(file[..i]) + file[i].key + Slot(value) + Flatten(file[i + 1..])
  {
    var i := s.status.index;
    assert i < |file| && s.file == file[i := Record(file[i].key, Slot(value))];
    ReplaceValueBytes(file, i, Slot(value), s.file);
  }

  /** The records a successful set leaves, as whole sequences. */
  lemma SetPrefWrites(file: seq<Record>, key: seq<char>, value: seq<char>, io: Io)
    requires WellFormed(file)
    ensures var s := SetPref(file, key, value, io);
            && (s.status.Overwritten? ==>
                  s.status.index < |file| &&
                  s.file == file[s.status.index := Record(file[s.status.index].key, Slot(value))])
            && (s.status.Appended? ==> s.file == file + [Record(Slot(key), Slot(value))] + [])
  {
    assert file + [Record(Slot(key), Slot(value))] + [] == file + [Record(Slot(key), Slot(value))];
  }

  lemma ReplaceValueBytes(file: seq<Record>, i: nat, v: seq<char>, updated: seq<Record>)
    requires WellFormed(file) && i < |file|
    requires updated == file[i := Record(file[i].key, v)]
    ensures |Flatten(file[..i]) + file[i].key| == (KeyLen + ValLen) * i + KeyLen
    ensures Flatten(file) == Flatten(file[..i]) + file[i].key + file[i].value + Flatten(file[i + 1..])
    ensures Flatten(updated) == Flatten(file[..i]) + file[i].key + v + Flatten(file[i + 1..])
  {
    var before, after := file[..i], file[i + 1..];
    assert file == before + [file[i]] + after;
    assert updated == before + [Record(file[i].key, v)] + after;
    assert WellFormed(before) by {
      forall j | 0 <= j < |before| ensures |before[j].key| == KeyLen && |before[j].value| == ValLen {
        assert before[j] == file[j];
      }
    }
    FlattenParse(before);
    FlattenAround(before, file[i], after);
    FlattenAround(before, Record(file[i].key, v), after);
  }

  /** An append adds one key slot and one value slot, 512 bytes, after the old contents. */
  lemma SetPrefAppendBytes(file: seq<Record>, key: seq<char>, value: seq<char>, io: Io)
    requires WellFormed(file) && SetPref(file, key, value, io).status.Appended?
    ensures Flatten(SetPref(file, key, value, io).file) == Flatten(file) + Slot(key) + Slot(value)
  {
    SetPrefWrites(file, key, value, io);
    AppendBytes(file, Record(Slot(key), Slot(value)), SetPref(file, key, value, io).file);
  }

  lemma AppendBytes(file: seq<Record>, r: Record, updated: seq<Record>)
    requires updated == file + [r] + []
    ensures Flatten(updated) == Flatten(file) + r.key + r.value
  {
    FlattenAround(file, r, []);
    assert Flatten([]) == [];
  }

  /** The bytes of a file split around one record. */
  lemma FlattenAround(before: seq<Record>, x: Record, after: seq<Record>)
    ensures Flatten(before + [x] + after) == Flatten(before) + x.key + x.value + Flatten(after)
  {
    var tail := [x] + after;
    assert before + [x] + after == before + tail;
    FlattenConcat(before, tail);
    assert tail[0] == x && tail[1..] == after;
    assert Flatten(tail) == x.key + x.value + Flatten(after);
  }

  /** No two records store the same key. */
  predicate DistinctKeys(file: seq<Record>)
  {
    forall i, j | 0 <= i < j < |file| :: CView(file[i].key) != CView(file[j].key)
  }

  /** A full key slot matches exactly the keys that agree with it in their first 256 characters. */
  lemma MatchesSlot(key: seq<char>, slot: seq<char>)
    requires |slot| == KeyLen
    ensures Matches(key, slot, KeyLen) <==> Trunc(CView(key), KeyLen) == CView(slot)
  {
    StrncmpZero(key, slot, KeyLen);
    assert Trunc(CView(slot), KeyLen) == CView(slot);
  }

  /** Setting a key never introduces a second record for a key already stored. */
  lemma SetPrefKeepsKeysDistinct(file: seq<Record>, key: seq<char>, value: seq<char>, io: Io)
    requires WellFormed(file) && DistinctKeys(file)
    ensures DistinctKeys(SetPref(file, key, value, io).file)
  {
    var s := SetPref(file, key, value, io);
    if s.status.Appended? {
      var n := |file|;
      forall i | 0 <= i < n
        ensures CView(s.file[i].key) != CView(s.file[n].key)
      {
        MatchesSlot(key, file[i].key);
        assert s.file[i] == file[i];
      }
      forall i, j | 0 <= i < j < |s.file|
        ensures CView(s.file[i].key) != CView(s.file[j].key)
      {
        if j < n {
          assert s.file[i] == file[i] && s.file[j] == file[j];
        }
      }
    } else if s.status.Overwritten? {
      forall i, j | 0 <= i < j < |s.file|
        ensures CView(s.file[i].key) != CView(s.file[j].key)
      {
        assert s.file[i].key == file[i].key && s.file[j].key == file[j].key;
      }
    }
  }

  // ---------------------------------------------------------------------
  // sys_get_pref
  // ---------------------------------------------------------------------

  /** The contents of the two uninitialised stack buffers `ks` and `vs` before the first read. */
  datatype Stack = Stack(ks: seq<char>, vs: seq<char>)

  /**
   What sys_get_pref does: return a byte count, having written `value` into
   the caller's buffer, or loop forever.
   */
  datatype Got = Returned(count: nat, value: seq<char>) | Hangs

  /** How many characters of the key are compared: 256, or `max_len` when that is smaller. */
  function CmpLen(maxLen: nat): (n: nat)
    ensures n <= KeyLen && n <= maxLen && (n == KeyLen || n == maxLen)
  {
    if KeyLen > maxLen then maxLen else KeyLen
  }

  /** How many characters of the value are copied out: 256, or `max_len` when that is smaller. */
  function CopyLen(maxLen: nat): (n: nat)
    ensures n <= ValLen && n <= maxLen && (n == ValLen || n == maxLen)
  {
    if ValLen > maxLen then maxLen else ValLen
  }

  /**
   The start of the caller's buffer once it has been emptied and then
   filled by strncpy from the value slot: n copied characters, or the lone
   NUL when n is 0.
   */
  function Delivered(vs: seq<char>, n: nat): (r: seq<char>)
    ensures n == 0 ==> r == [Nul]
    ensures n > 0 ==> |r| == n && CView(r) == Trunc(CView(vs), n)
  {
    if n == 0 then [Nul] else Strncpy(vs, n)
  }

  /**
   strncpy does not terminate what it copies when the value has n or more
   characters: the n bytes delivered then hold no NUL at all.
   */
  lemma DeliveredUnterminated(vs: seq<char>, n: nat)
    requires n > 0 && |CView(vs)| >= n
    ensures |Delivered(vs, n)| == n && Nul !in Delivered(vs, n)
  {
    var r := Delivered(vs, n);
    assert |CView(r)| == n;
    assert CView(r) == r[..n] == r;
  }

  /** The answer on a failed open or read: 0, with an empty string in `value`. */
  const Failed: Got := Returned(0, [Nul])

  /**
   sys_get_pref(key, value, max_len). Each pass reads a key slot (read 2j)
   and a value slot (read 2j + 1), then compares. At the end of the file
   `f_read` succeeds with 0 bytes and leaves both buffers as they were, so
   the pass compares the same stale key again: the loop ends only if that
   key matches or a later read fails.
   */
  function GetPref(file: seq<Record>, key: seq<char>, maxLen: nat, io: Io, stack: Stack): (g: Got)
    requires WellFormed(file)
    ensures !io.opens ==> g == Failed
    ensures g.Returned? ==> g.count == 0 || g.count == ValLen
    ensures g.Returned? ==> |g.value| <= Max(1, CopyLen(maxLen))
    ensures var m := FirstMatch(file, key, CmpLen(maxLen));
            m.Some? && io.opens && ReadsSucceedBefore(io, 2 * m.value + 2) ==>
              g == Returned(ValLen, Delivered(file[m.value].value, CopyLen(maxLen)))
    ensures var m := FirstMatch(file, key, CmpLen(maxLen));
            m.Some? && !ReadsSucceedBefore(io, 2 * m.value + 2) ==> g == Failed
    ensures FirstMatch(file, key, CmpLen(maxLen)).None? && g.Returned? ==> g.count == 0
    ensures io.opens && FirstMatch(file, key, CmpLen(maxLen)).None? && !ReadsSucceedBefore(io, 2 * |file| + 2) ==>
              g == Failed
    ensures io.opens && |file| > 0 && FirstMatch(file, key, CmpLen(maxLen)).None? && io.failingRead.Some? ==>
              g == Failed
    ensures g.Hangs? <==>
              && io.opens && io.failingRead.None?
              && FirstMatch(file, key, CmpLen(maxLen)).None?
              && (|file| > 0 || !Matches(key, stack.ks, CmpLen(maxLen)))
  {
    var n := CmpLen(maxLen);
    if !io.opens then Failed
    else match FirstMatch(file, key, n)
      case Some(i) =>
        if ReadsSucceedBefore(io, 2 * i + 2) then Returned(ValLen, Delivered(file[i].value, CopyLen(maxLen)))
        else Failed
      case None =>
        if !ReadsSucceedBefore(io, 2 * |file| + 2) then Failed
        else
          var stale := if |file| > 0 then file[|file| - 1] else Record(stack.ks, stack.vs);
          if Matches(key, stale.key, n) then Returned(0, Delivered(stale.value, CopyLen(maxLen)))
          else if io.failingRead.Some? then Failed
          else Hangs
  }

  /**
   The loop of sys_get_pref as written, over the records of the file; once
   the reads run past the end, the buffers no longer change and the outcome
   of the endless remainder is decided from the stale key and the first
   failing read.
   */
  method GetPrefLoop(file: seq<Record>, key: seq<char>, maxLen: nat, io: Io, stack: Stack) returns (g: Got)
    requires WellFormed(file)
    ensures g == GetPref(file, key, maxLen, io, stack)
  {
    if !io.opens {
      return Failed;
    }
    var n := if KeyLen > maxLen then maxLen else KeyLen;
    var ks, vs := stack.ks, stack.vs;
    var j := 0;
    while j < |file|
      invariant 0 <= j <= |file|
      invariant n == CmpLen(maxLen)
      invariant FirstMatch(file, key, n) == FirstMatchFrom(file, key, n, j)
      invariant ReadsSucceedBefore(io, 2 * j)
      invariant j > 0 ==> ks == file[j - 1].key && vs == file[j - 1].value
      invariant j == 0 ==> ks == stack.ks && vs == stack.vs
    {
      if !ReadOk(io, 2 * j) {
        return Failed;
      }
      ks := file[j].key;
      if !ReadOk(io, 2 * j + 1) {
        return Failed;
      }
      vs := file[j].value;
      if Strncmp(key, ks, n) == 0 {
        assert FirstMatch(file, key, n) == Some(j);
        return Returned(ValLen, Delivered(vs, CopyLen(maxLen)));
      }
      j := j + 1;
    }
    // At the end of the file every read succeeds with 0 bytes unless it fails.
    if !ReadOk(io, 2 * j) || !ReadOk(io, 2 * j + 1) {
      return Failed;
    }
    if Strncmp(key, ks, n) == 0 {
      return Returned(0, Delivered(vs, CopyLen(maxLen)));
    }
    if io.failingRead.Some? {
      return Failed;
    }
    return Hangs;
  }

  /**
   A key that no record holds, looked up in a non-empty file that never
   fails to read: sys_get_pref does not return at all.
   */
  lemma GetAbsentKeyHangs(file: seq<Record>, key: seq<char>, maxLen: nat, stack: Stack)
    requires WellFormed(file) && |file| > 0
    requires forall j | 0 <= j < |file| :: !Matches(key, file[j].key, CmpLen(maxLen))
    ensures GetPref(file, key, maxLen, Io(true, None), stack) == Hangs
  {
  }

  /**
   Round trip: once sys_set_pref(key, value) has written, sys_get_pref(key)
   with a buffer of at least 256 characters and no failing I/O returns 256
   and the value cut to 256 characters.
   */
  lemma SetThenGet(file: seq<Record>, key: seq<char>, value: seq<char>, io: Io, maxLen: nat, stack: Stack)
    requires WellFormed(file)
    requires SetPref(file, key, value, io).status.Overwritten? || SetPref(file, key, value, io).status.Appended?
    requires maxLen >= ValLen
    ensures var g := GetPref(SetPref(file, key, value, io).file, key, maxLen, Io(true, None), stack);
            && g == Returned(ValLen, Slot(value))
            && CView(g.value) == Trunc(CView(value), ValLen)
  {
    var s := SetPref(file, key, value, io);
    var i := SetFindsWritten(file, key, value, io);
    assert CmpLen(maxLen) == KeyLen && CopyLen(maxLen) == ValLen;
    assert GetPref(s.file, key, maxLen, Io(true, None), stack) == Returned(ValLen, Delivered(Slot(value), ValLen));
    StrncpyIdempotent(value, KeyLen);
  }

  /** After a successful set, the first record matching the key is the one just written. */
  lemma SetFindsWritten(file: seq<Record>, key: seq<char>, value: seq<char>, io: Io) returns (i: nat)
    requires WellFormed(file)
    requires SetPref(file, key, value, io).status.Overwritten? || SetPref(file, key, value, io).status.Appended?
    ensures var s := SetPref(file, key, value, io);
            i < |s.file| && FirstMatch(s.file, key, KeyLen) == Some(i) && s.file[i].value == Slot(value)
  {
    var s := SetPref(file, key, value, io);
    i := if s.status.Overwritten? then s.status.index else |file|;
    if s.status.Appended? {
      MatchesSlot(key, Slot(key));
      assert s.file[i] == Record(Slot(key), Slot(value));
    }
    assert forall j | 0 <= j < i :: s.file[j].key == file[j].key;
    var m := FirstMatch(s.file, key, KeyLen);
    assert Matches(key, s.file[i].key, KeyLen);
    assert m.Some? && m.value <= i;
  }
}

=== FILE: wrappers.dfy ===
/** Small shared helpers: an optional value and integer minimum/maximum. */
module Wrappers {

  /** A value that may be absent, used for C's null-pointer results. */
  datatype Option<+T> = None | Some(value: T)

  function Min(a: int, b: int): int
  {
    if a <= b then a else b
  }

  function Max(a: int, b: int): int
  {
    if a >= b then a else b
  }
}
